=== FILE: README.md ===
# Storefront sections: a Dafny model

This project models the logic inside the UI sections of a Shopify Hydrogen
storefront built with the Weaverse page builder. That logic covers:

- **Image carousel** (`Carousel`). The product gallery and the product details
  section both have one. It tracks a current slide index, which moves on the
  previous/next buttons and jumps on a pagination dot. Each move asks the
  scroll container to scroll by, or to, a multiple of the stride (first slide's
  width + 10 px gap).
- **Product details page state** (`ProductDetails`). The carousel, the open
  flags of the cart drawer and the fit guide, the three "Add to Cart" buttons,
  the size buttons, and the line item handed to the drawer for the fixed sample
  product.
- **Cart drawer** (`CartDrawer`). A quantity counter with a floor of 1, the
  subtotal parsed from the "$"-prefixed price, the amount left to reach free
  shipping at $75, the progress bar fraction, the header message, and render
  gating on "open and mounted".
- **Product image extraction** (`ProductMedia`). A filter/map/filter pipeline
  over the product's media nodes.
- **Featured product card** (`ProductCard`). The card's title, variant label,
  link, image, prices and swatch, each derived from the product record through
  fallbacks.
- **Featured gifts grid** (`GiftsGrid`). Each setting is resolved against
  built-in defaults, and the card renderer's rule for when to draw nothing.
- **Gift grid blocks** (`GiftCards`). The square card, tall card and hero
  normalise an image setting that arrives as a string, an object or nothing.
- **Sales item** (`SalesItem`). The collection loader's global ID and no-query
  case, the collection image / main image fallback, and the hover flag that
  shows the second image layer.

The code runs in JavaScript, and its semantics are written out where they
matter (`Js`, `Numbers`):

- `||` on optional strings (the empty string is falsy) and `??`;
- numbers that may be `NaN`, with `Math.max`/`Math.min` propagating it and
  comparisons with it false;
- the subset of `parseFloat` that price text uses;
- `toFixed(0)`.

Browser measurements (the slide width, whether the container is attached),
the storefront query and the page builder's placeholder images are
parameters.

## Model

| member | source | states |
|---|---|---|
| Carousel.Init | app/sections/main-product-details/product-gallery.tsx:16 | the carousel starts on slide 0 with scroll target 0; that state is valid and aligned whatever the slide width |
| Carousel.Stride | app/sections/main-product-details/product-gallery.tsx:23-24 | one step scrolls by exactly the first slide's measured width plus the 10 px gap; with no first slide the width counts as 0, so the step is the gap alone |
| Carousel.ScrollLeft | app/sections/main-product-details/product-gallery.tsx:21-28 | a no-op on slide 0 or without the container; otherwise the index drops by exactly 1 and the scroll target by exactly one stride; a valid index stays valid |
| Carousel.ScrollRight | app/sections/main-product-details/product-gallery.tsx:30-37 | a no-op on the last slide or without the container; otherwise the index rises by exactly 1 and the scroll target by one stride; never passes the last slide |
| Carousel.ScrollToIndex | app/sections/main-product-details/product-gallery.tsx:39-47 | with the container attached, sets the index to exactly the argument, unclamped, and the scroll target to index × stride; without it, nothing changes; an in-range argument keeps the state valid |
| Carousel.Handle | app/sections/main-product-details/product-gallery.tsx:21-47 | the previous button steps left, the next button steps right, and a dot jumps to its own position; any click leaves the slide count alone and does nothing without the container; a click on a rendered control keeps the index valid |
| Carousel.Run | app/sections/main-product-details/product-gallery.tsx:94-97 | since dots exist only for positions 0..N−1, any sequence of clicks keeps 0 ≤ index ≤ N−1 (index 0 when N = 0) |
| Carousel.RunStaysAligned | app/sections/main-product-details/product-gallery.tsx:23-44 | with a fixed slide width, the scroll target after any click sequence is exactly index × stride, so relative and absolute scrolls agree |
| Carousel.LeftUndoesRight | app/sections/main-product-details/product-gallery.tsx:21-37 | a right step that moved is undone exactly by a left step |
| Carousel.RightUndoesLeft | app/sections/main-product-details/product-gallery.tsx:21-37 | a left step that moved is undone exactly by a right step |
| Carousel.Dots | app/sections/main-product-details/product-gallery.tsx:94 | there is one dot per slide |
| Carousel.ExactlyOneActiveDot | app/sections/main-product-details/product-gallery.tsx:98 | on a valid carousel with slides, the current slide's dot is active and no other is |
| ProductDetails.SizeButton | app/sections/main-product-details/index.tsx:243-259 | a size button shows its size; it is disabled, unfilled and struck through exactly when the size is unavailable |
| ProductDetails.SampleSizes | app/sections/main-product-details/index.tsx:25-33 | of the sample product's seven sizes, only size 11 has an enabled button |
| ProductDetails.CartSnapshot | app/sections/main-product-details/index.tsx:328-336 | the drawer's line item has quantity 1, the product's displayed price and compare-at price, its first image, size 11, and the colour with the sole name appended |
| ProductDetails.Initial | app/sections/main-product-details/index.tsx:51-53 | the page starts on slide 0, with the cart and the fit guide closed and the drawer at quantity 1 and not yet mounted |
| ProductDetails.Dispatch | app/sections/main-product-details/index.tsx:55-85 | add-to-cart opens only the cart; closing the cart or the fit guide clears only that flag; opening the fit guide sets only its flag; a carousel click changes only the gallery, as the carousel's handler does; the drawer's mount changes only the drawer; a quantity click changes only the drawer, and only while it is on screen |
| ProductDetails.AddToCartIsOneHandler | app/sections/main-product-details/index.tsx:55-57 | all three add-to-cart buttons act the same; adding again changes nothing; the cart is then open |
| ProductDetails.ReopeningKeepsQuantity | app/sections/main-product-details/index.tsx:325-337 | closing and reopening the cart leaves the drawer's state, and so its quantity, as it was; the drawer is visible again once mounted |
| ProductDetails.Run | app/sections/main-product-details/index.tsx:59-85 | any sequence of page actions keeps the carousel index on one of the images and the drawer quantity at least 1 |
| ProductDetails.FitGuideOpensOnlyFromItsButton | app/sections/main-product-details/index.tsx:268 | if the fit guide starts closed, no action sequence without the fit guide button opens it |
| ProductDetails.CartOpensOnlyFromAddToCart | app/sections/main-product-details/index.tsx:278 | if the cart starts closed, no action sequence without an add-to-cart button opens it |
| ProductDetails.SampleCartShortOfFreeShipping | app/sections/main-product-details/index.tsx:332 | the sample's "$66" price gives an opening subtotal of 66, which is $9 short of free shipping |
| CartDrawer.Init | app/sections/main-product-details/cart-drawer.tsx:21-22 | the drawer starts at the line item's quantity and not mounted |
| CartDrawer.Mount | app/sections/main-product-details/cart-drawer.tsx:29-31 | mounting sets the mounted flag and keeps the quantity |
| CartDrawer.Increment | app/sections/main-product-details/cart-drawer.tsx:33 | "+" raises the quantity by exactly 1 |
| CartDrawer.Decrement | app/sections/main-product-details/cart-drawer.tsx:34 | "−" never gives less than 1: from q ≥ 2 it gives q − 1, from q ≤ 2 it gives 1 |
| CartDrawer.DecrementUndoesIncrement | app/sections/main-product-details/cart-drawer.tsx:33-34 | from any positive quantity, "−" after "+" restores the state |
| CartDrawer.Press | app/sections/main-product-details/cart-drawer.tsx:33-34 | the "+" button (line 156) increments and the "−" button (line 141) decrements, each through its own handler |
| CartDrawer.PressAll | app/sections/main-product-details/cart-drawer.tsx:33-34 | with no clicks the drawer is unchanged; clicks never change the mounted flag |
| CartDrawer.QuantityStaysPositive | app/sections/main-product-details/cart-drawer.tsx:33-34 | from a positive quantity, any click sequence keeps it at least 1 and at most the start plus the number of clicks |
| CartDrawer.IndexOf | app/sections/main-product-details/cart-drawer.tsx:24 | finds the first occurrence of a character, or reports that there is none |
| CartDrawer.StripDollar | app/sections/main-product-details/cart-drawer.tsx:24 | `replace("$", "")` removes only the first dollar sign, and leaves a string without one unchanged |
| CartDrawer.UnitPrice | app/sections/main-product-details/cart-drawer.tsx:24 | a price without "$" parses as it is; a price starting with "$" parses as the text after it |
| CartDrawer.UnitPriceOfWholeDollars | app/sections/main-product-details/cart-drawer.tsx:24 | a price "$n" parses to the unit price n |
| CartDrawer.Subtotal | app/sections/main-product-details/cart-drawer.tsx:24 | the subtotal is NaN exactly when the price does not parse |
| CartDrawer.SubtotalIsPriceTimesQuantity | app/sections/main-product-details/cart-drawer.tsx:24 | a parsed subtotal is the unit price times the quantity currently shown |
| CartDrawer.SubtotalOfWholeDollars | app/sections/main-product-details/cart-drawer.tsx:24 | a price "$n" gives the subtotal n × quantity |
| CartDrawer.AmountToFreeShipping | app/sections/main-product-details/cart-drawer.tsx:25-26 | never negative; 75 − subtotal when the subtotal is at most 75, 0 when it is at least 75; NaN exactly when the subtotal is NaN |
| CartDrawer.ShippingProgress | app/sections/main-product-details/cart-drawer.tsx:27 | never above 1; exactly 1 when the subtotal reaches 75; at least 0 for a non-negative subtotal; below the threshold, subtotal / 75 |
| CartDrawer.ShippingMessage | app/sections/main-product-details/cart-drawer.tsx:59-61 | the earned message appears exactly when the remainder is not above 0 (NaN included); otherwise "Spend $" followed by the remainder's whole-dollar digits |
| CartDrawer.MessageMatchesThreshold | app/sections/main-product-details/cart-drawer.tsx:59-61 | for a parsable price, the "earned free shipping" message appears exactly when nothing is left to spend, which is exactly when the subtotal reaches 75 |
| CartDrawer.UnparsablePriceClaimsFreeShipping | app/sections/main-product-details/cart-drawer.tsx:24-61 | if the price does not parse, the NaN remainder fails the `> 0` test, so the header claims free shipping |
| CartDrawer.ShippingExampleBelow | app/sections/main-product-details/cart-drawer.tsx:25-27 | a subtotal of 30 leaves 45 to spend and fills the bar to 0.4 |
| CartDrawer.ShippingMessageExample | app/sections/main-product-details/cart-drawer.tsx:59-60 | a remainder of 45 reads "Spend $45 more to earn free shipping!" |
| CartDrawer.ShippingExampleAbove | app/sections/main-product-details/cart-drawer.tsx:25-61 | a subtotal of 80 leaves 0, fills the bar, and shows the earned message |
| CartDrawer.Render | app/sections/main-product-details/cart-drawer.tsx:24-172 | the drawer draws something exactly when it is open and mounted; its heading is "Cart (q)" for the current quantity; the item's fields are shown as given at each render; the message, progress and subtotal come from the current price and quantity |
| Numbers.IntToString | app/sections/main-product-details/cart-drawer.tsx:57 | the quantity in the heading is its decimal digits, preceded by "-" when negative |
| CartDrawer.VisibleOnceMounted | app/sections/main-product-details/cart-drawer.tsx:22-36 | before the mount effect the drawer is invisible even when open; after it, it is visible exactly when open |
| ProductMedia.Nodes | app/sections/main-product-details/utils.ts:10 | a missing product, media or node list gives no nodes; a present node list is used as it is |
| ProductMedia.KeepMediaImages | app/sections/main-product-details/utils.ts:12 | keeps only nodes whose type is "MediaImage", and every such node |
| ProductMedia.KeepMediaImagesCounts | app/sections/main-product-details/utils.ts:12 | each "MediaImage" node is kept as many times as it occurs, and no other node is kept |
| ProductMedia.KeepMediaImagesAppend | app/sections/main-product-details/utils.ts:12 | filtering a concatenation is the concatenation of the filtered parts, so the kept nodes stay in order |
| ProductMedia.KeepMediaImagesSingle | app/sections/main-product-details/utils.ts:12 | a single node is kept exactly when its type is "MediaImage" |
| ProductMedia.ImageUrl | app/sections/main-product-details/utils.ts:13 | a node's URL is its image's URL when the image has a non-empty one, and "" otherwise |
| ProductMedia.Urls | app/sections/main-product-details/utils.ts:13 | maps each node to its image URL, or "" without one |
| ProductMedia.KeepNonEmpty | app/sections/main-product-details/utils.ts:14 | keeps only non-empty URLs, and every such URL |
| ProductMedia.KeepNonEmptyCounts | app/sections/main-product-details/utils.ts:14 | each non-empty URL is kept as many times as it occurs, and the empty one never |
| ProductMedia.KeepNonEmptyAppend | app/sections/main-product-details/utils.ts:14 | filtering a concatenation is the concatenation of the filtered parts, so the kept URLs stay in order |
| ProductMedia.KeepNonEmptySingle | app/sections/main-product-details/utils.ts:14 | a single URL is kept exactly when it is non-empty |
| ProductMedia.ExtractProductImages | app/sections/main-product-details/utils.ts:9-15 | no nodes give no images; there are never more images than nodes, and none is empty |
| ProductMedia.ExtractIsInOrder | app/sections/main-product-details/utils.ts:11-14 | the pipeline returns exactly the non-empty URLs of image nodes, in node order |
| ProductMedia.ExtractedUrlHasNode | app/sections/main-product-details/utils.ts:11-14 | every returned URL is the non-empty URL of some image node |
| ProductMedia.NodeUrlIsExtracted | app/sections/main-product-details/utils.ts:11-14 | every image node's non-empty URL is returned |
| ProductMedia.ExtractMembership | app/sections/main-product-details/utils.ts:11-14 | a URL is returned exactly when some image node has it as a non-empty URL |
| ProductMedia.NonImageNodesContributeNothing | app/sections/main-product-details/utils.ts:12 | inserting a node that is not an image anywhere leaves the result unchanged |
| ProductCard.FindColorOption | app/sections/featured-products1/single-product-card.tsx:16 | returns the first option named exactly "Color", and nothing exactly when there is none |
| ProductCard.ColorValue | app/sections/featured-products1/single-product-card.tsx:17 | there is a colour value exactly when a "Color" option exists with at least one value, and it is that option's first value |
| ProductCard.PriceText | app/sections/featured-products1/single-product-card.tsx:24-29 | a price shows as "" exactly when its amount is absent or empty; otherwise "$" followed by the amount rounded to a whole number |
| ProductCard.PriceTextOfWholeAmount | app/sections/featured-products1/single-product-card.tsx:24-26 | an amount "n.0" shows as "$n" |
| ProductCard.CardImage | app/sections/featured-products1/single-product-card.tsx:23 | the variant image URL when non-empty, otherwise the first product image URL; "" exactly when neither exists |
| ProductCard.Derive | app/sections/featured-products1/single-product-card.tsx:15-30 | the title is the product title when non-empty, else "Product Title"; the link is "/products/" followed by exactly the handle; the image is the card image; the swatch is the colour value's swatch colour when non-empty, else grey; both prices come from the variant; the compare-at price is shown exactly when non-empty; the alt text is "title - variant" |
| ProductCard.VariantLabelPreference | app/sections/featured-products1/single-product-card.tsx:21 | the variant label is the colour value's name, else the variant title, else "" |
| ProductCard.NoColorOptionMeansGreySwatch | app/sections/featured-products1/single-product-card.tsx:30 | without a "Color" option the swatch is "rgb(128, 128, 128)" |
| ProductCard.WholePricesShown | app/sections/featured-products1/single-product-card.tsx:24-29 | a variant priced "n.0" with compare-at "m.0" shows "$n" and a struck-through "$m" |
| GiftsGrid.Field | app/sections/featured-gifts-grid/index.tsx:68 | a setting is used when non-empty, otherwise its default |
| GiftsGrid.Resolve | app/sections/featured-gifts-grid/index.tsx:69-83 | each of title, image and link independently takes its setting when non-empty, otherwise its own default |
| GiftsGrid.DefaultsComplete | app/sections/featured-gifts-grid/index.tsx:11-33 | the default hero image and every field of the three default cards are non-empty |
| GiftsGrid.EmptyIsUnset | app/sections/featured-gifts-grid/index.tsx:70-82 | an empty setting resolves exactly like an unset one, field by field |
| GiftsGrid.ResolveIsIdempotent | app/sections/featured-gifts-grid/index.tsx:69-83 | resolving an already resolved card changes nothing |
| GiftsGrid.RenderCard | app/sections/featured-gifts-grid/index.tsx:85-102 | draws nothing exactly when the image is empty or absent; otherwise the image, the link (or "#" when absent), and the alt text (title, or "Featured gift") |
| GiftsGrid.EmptyHrefIsKept | app/sections/featured-gifts-grid/index.tsx:92 | `??` keeps an explicitly empty link instead of falling back to "#" |
| GiftsGrid.ResolvedTop | app/sections/featured-gifts-grid/index.tsx:69-73 | the top card takes the top-card title, image and link settings, each falling back to the top card's default |
| GiftsGrid.ResolvedTall | app/sections/featured-gifts-grid/index.tsx:74-78 | the tall card takes the tall-card settings, each falling back to the tall card's default |
| GiftsGrid.ResolvedBottom | app/sections/featured-gifts-grid/index.tsx:79-83 | the bottom card takes the bottom-card settings, each falling back to the bottom card's default |
| GiftsGrid.Drawn | app/sections/featured-gifts-grid/index.tsx:121-123 | when every card renders, all of them appear, in order |
| GiftsGrid.Render | app/sections/featured-gifts-grid/index.tsx:104-123 | the hero image is always drawn: the setting when non-empty, else the built-in default |
| GiftsGrid.AllCardsDrawn | app/sections/featured-gifts-grid/index.tsx:69-123 | whatever the settings, the top, tall and bottom cards are all drawn in that order, each with a non-empty link and image, and alt text equal to its title; each card's image, alt text and link are its own settings or its own defaults |
| GiftsGrid.EmptySettingsShowDefaults | app/sections/featured-gifts-grid/index.tsx:14-33 | with nothing set, the grid shows exactly the built-in hero and cards |
| GiftCards.Normalize | app/sections/featured-gifts-grid/square-card.tsx:22-25 | a string becomes an image with that URL, even an empty one; an object passes through unchanged; an unset value becomes the placeholder |
| GiftCards.NormalizeIsIdempotent | app/sections/featured-gifts-grid/square-card.tsx:25 | a normalised image normalises to itself |
| GiftCards.RenderCard | app/sections/featured-gifts-grid/square-card.tsx:22-46 | the card draws nothing exactly when the image was given as "", as an object without a URL, or is unset with an empty placeholder; the link falls back to "#"; title and alt fall back to "Featured gift" |
| GiftCards.TallMatchesSquare | app/sections/featured-gifts-grid/tall-card.tsx:22-46 | the tall card draws exactly when the square card would, with the same link, title and image |
| GiftCards.UnsetCardShowsPlaceholder | app/sections/featured-gifts-grid/square-card.tsx:25 | an unset card image shows the product placeholder |
| GiftCards.RenderHero | app/sections/featured-gifts-grid/hero.tsx:19-43 | the hero always draws its container; its image is drawn exactly when the normalised URL is non-empty, falling back to the collection placeholder |
| GiftCards.HeroImageMissing | app/sections/featured-gifts-grid/hero.tsx:19-38 | the hero image is missing exactly when given as "", as an object without a URL, or unset with an empty placeholder |
| SalesItem.GlobalId | app/sections/featured-collections-sales/sales-item.tsx:50 | the queried ID is "gid://shopify/Collection/" followed by the decimal digits of the collection ID, with no leading zero unless the ID is 0 |
| SalesItem.GlobalIdRoundTrip | app/sections/featured-collections-sales/sales-item.tsx:50 | reading the number back out of the global ID gives the collection ID |
| SalesItem.GlobalIdInjective | app/sections/featured-collections-sales/sales-item.tsx:50 | two collections share a global ID exactly when they are the same collection |
| SalesItem.Request | app/sections/featured-collections-sales/sales-item.tsx:49-50 | a query is made exactly when a collection with a non-zero ID is set, and it is for exactly that collection's global ID |
| SalesItem.Loader | app/sections/featured-collections-sales/sales-item.tsx:43-58 | without a set collection ID the loader returns null with no query; otherwise it returns the query's answer for the collection's global ID |
| SalesItem.SameCollectionSameNode | app/sections/featured-collections-sales/sales-item.tsx:49-54 | two items set to the same collection load the same node |
| SalesItem.Normalize | app/sections/featured-collections-sales/sales-item.tsx:79 | a non-object main image is wrapped as `{url: value}`; an object passes through; null, whose `typeof` is "object", stays null |
| SalesItem.DisplayImage | app/sections/featured-collections-sales/sales-item.tsx:80 | the collection's image, with its URL, alt text, width and height, when it has one; else the normalised main image |
| SalesItem.AspectArgument | app/sections/featured-collections-sales/sales-item.tsx:72 | the aspect-ratio setting is "adapt" only when unset; an explicit null stays null and any other value is passed on |
| SalesItem.Render | app/sections/featured-collections-sales/sales-item.tsx:72-114 | the displayed image is both drawn and handed to the aspect-ratio helper, with the setting defaulted only when unset; the hover layer exists exactly when the hover image is truthy, shows the normalised hover image, and is visible exactly when hovered |
| SalesItem.NoCollectionUsesMainImage | app/sections/featured-collections-sales/sales-item.tsx:79-80 | without loaded data the item shows its own main image; it has none exactly when the main image is null |
| SalesItem.Step | app/sections/featured-collections-sales/sales-item.tsx:93-94 | entering sets the hover flag and leaving clears it, whatever it was before |
| SalesItem.Track | app/sections/featured-collections-sales/sales-item.tsx:73-94 | after any mouse events, the hover flag is set exactly when the last one was an enter; with none it keeps its value |
| SalesItem.HoverLayerShownWhileInside | app/sections/featured-collections-sales/sales-item.tsx:104-111 | starting unhovered, the hover layer is visible exactly when the latest mouse event was an enter |
| Numbers.NatToString | app/sections/featured-collections-sales/sales-item.tsx:50 | a number is written as at least one decimal digit, with no leading zero unless it is 0 |
| Numbers.NatToStringValue | app/sections/featured-collections-sales/sales-item.tsx:50 | the decimal digits written for a number read back as that number |
| Numbers.ParseFloat | app/sections/main-product-details/cart-drawer.tsx:24 | blank text gives NaN; a negative result needs a leading minus sign; text starting with a digit after its leading white space is read as an unsigned decimal |
| Numbers.ParseFloatNeedsDigit | app/sections/main-product-details/cart-drawer.tsx:24 | `parseFloat` gives a number only if the text contains a digit |
| Numbers.ParseFloatOfNat | app/sections/main-product-details/cart-drawer.tsx:24 | `parseFloat` of a number's decimal digits is that number |
| Numbers.ParseFloatOfWholeAmount | app/sections/featured-products1/single-product-card.tsx:25 | `parseFloat` of "n.000…" is n |
| Numbers.ToFixed0 | app/sections/main-product-details/cart-drawer.tsx:60 | `toFixed(0)` of NaN is "NaN"; of a non-negative number, the digits of the nearest whole number, halves rounded up; of a negative number, "-" followed by the digits of the nearest whole magnitude |
| Numbers.ToFixed0OfNat | app/sections/main-product-details/cart-drawer.tsx:172 | `toFixed(0)` of a whole number is its decimal digits |

## Left out

- Browser effects. `scrollBy`/`scrollTo` animation, the browser clamping
  the scroll position to the scrollable range, `clientWidth` measurement, the
  portal into `document.body` and event propagation are left out. The
  measured width and whether the container is attached are parameters of each
  click. The scroll position is the target each request aims at.
- Number formatting. `parseFloat` is modelled for optional leading ASCII
  whitespace (space, tab, line feed, vertical tab, form feed, carriage return), a sign, digits, and an optional fraction. Exponents,
  "Infinity" and Unicode whitespace are left out. Text such as "0x10" reads as
  0, since parsing stops at the "x", as in JavaScript.
  Numbers are exact reals, so IEEE rounding is not modelled. `toFixed(0)`
  switching to exponential notation at 1e21 and above is not modelled.
- Storefront transport. The GraphQL query text and its transport are left
  out. The query is a parameter that maps a global ID to the node it finds.
  Language and country context are ignored.
- External components whose code is not part of this model:
  - the page builder's `IMAGES_PLACEHOLDERS`, passed as the `Placeholders`
    parameter;
  - `calculateAspectRatio`, whose arguments are recorded instead;
  - `Image`, `Link` and `Section`;
  - `useId` and the class-name tables.
- The product details section's fit guide is static markup, and it is not
  part of this model. Its open flag is modelled in `ProductDetails`. The
  breadcrumb, the "Remove" button and the product's colour swatch buttons are
  left out too: none of them has a click handler, so they change no state.
- React re-rendering. State updates are sequential transitions, so the
  difference between a handler's closure and an updater function does not
  arise. The drawer takes its quantity from the line item once, when it is
  created, and keeps its own copy; every other field of the line item, the
  price included, is read again at each render, as `CartDrawer.Render` takes
  the item as an argument.
- Carousel: the image list is taken as fixed for the gallery's lifetime.
  The gallery reads its images from the product at every render, but its
  current index is state that nothing resets. If the product changed while
  the gallery stayed on screen, the old index could point past the last slide.
  `Carousel.Run` keeps the index valid only for a fixed slide count.
- The product details section shows a fixed sample product. Its price, discount
  and size list are constants there, not derived from a loaded product and
  variant, so no variant or discount computation is modelled.
- Numbers.ToFixed0: the rounding is stated on exact reals (round half up on
  the magnitude), not on the IEEE double the JavaScript value would be.

The carousel's dot jump sets the index to its argument without clamping it.
Only the rendered dots, one per slide, keep it in range, and the model follows
this code.

=== FILE: carousel.dfy ===
/**
  Navigation state of the product image carousel: a current slide index into
  a fixed number of slides, moved by the previous/next buttons and set by the
  pagination dots. Every move also asks the scroll container to scroll; the
  model keeps the scroll position those requests aim at (`offset`), without
  the browser's smooth animation or its clamping to the scrollable range.
  The same logic appears in the product gallery and in the product details
  section, which differ only in where the number of slides comes from.
 */
module Carousel {
  import opened Js

  /** Fixed gap between slides, in pixels. */
  const Gap: nat := 10

  /**
    What a click handler finds in the page: whether the scroll container is
    attached, and the measured width of its first slide if there is one.
   */
  datatype Viewport = Viewport(attached: bool, firstSlideWidth: Option<nat>)

  /** The measured width of the first slide, or 0 when there is no slide to measure. */
  function SlideWidth(v: Viewport): nat {
    v.firstSlideWidth.GetOr(0)
  }

  /** The distance between the starts of two neighbouring slides. */
  function Stride(v: Viewport): (r: nat)
    ensures r >= Gap
    ensures v.firstSlideWidth.None? ==> r == Gap
    ensures v.firstSlideWidth.Some? ==> r == v.firstSlideWidth.value + Gap
  {
    SlideWidth(v) + Gap
  }

  /** `slides` is the number of slides, fixed for the life of the carousel. */
  datatype Gallery = Gallery(slides: nat, index: int, offset: int)

  /** The index names a slide, or is 0 when there are none. */
  predicate Valid(g: Gallery) {
    0 <= g.index && (if g.slides == 0 then g.index == 0 else g.index < g.slides)
  }

  /** The scroll target is where the current slide starts. */
  predicate Aligned(g: Gallery, v: Viewport) {
    g.offset == g.index * Stride(v)
  }

  /** The carousel starts on its first slide, scrolled to the start. */
  function Init(slides: nat): (g: Gallery)
    ensures Valid(g) && g.slides == slides
    ensures g.index == 0 && g.offset == 0
    ensures forall v :: Aligned(g, v)
  {
    Gallery(slides, 0, 0)
  }

  /** The previous-slide button. */
  function ScrollLeft(g: Gallery, v: Viewport): (r: Gallery)
    ensures r.slides == g.slides
    ensures !v.attached || g.index <= 0 ==> r == g
    ensures v.attached && g.index > 0 ==>
              r.index == g.index - 1 && r.offset == g.offset - Stride(v)
    ensures Valid(g) ==> Valid(r)
  {
    if v.attached && g.index > 0 then
      g.(index := if g.index - 1 > 0 then g.index - 1 else 0, offset := g.offset - Stride(v))
    else
      g
  }

  /** The next-slide button. */
  function ScrollRight(g: Gallery, v: Viewport): (r: Gallery)
    ensures r.slides == g.slides
    ensures !v.attached || g.index >= g.slides - 1 ==> r == g
    ensures v.attached && g.index < g.slides - 1 ==>
              r.index == g.index + 1 && r.offset == g.offset + Stride(v)
    ensures Valid(g) ==> Valid(r)
  {
    if v.attached && g.index < g.slides - 1 then
      var last := g.slides - 1;
      g.(index := if last < g.index + 1 then last else g.index + 1, offset := g.offset + Stride(v))
    else
      g
  }

  /** A pagination dot: jump to slide `i`, with no clamping of `i`. */
  function ScrollToIndex(g: Gallery, v: Viewport, i: int): (r: Gallery)
    ensures r.slides == g.slides
    ensures !v.attached ==> r == g
    ensures v.attached ==> r.index == i && Aligned(r, v)
    ensures Valid(g) && 0 <= i < g.slides ==> Valid(r)
  {
    if v.attached then g.(index := i, offset := i * Stride(v)) else g
  }

  /** The controls of the carousel; a dot carries its own position. */
  datatype Click = Previous | Next | Dot(position: int)

  /** One click, together with what the handler measures when it runs. */
  datatype Event = Event(view: Viewport, click: Click)

  /** Dots are rendered only for the positions 0 .. slides - 1. */
  predicate Offered(slides: nat, c: Click) {
    c.Dot? ==> 0 <= c.position < slides
  }

  /** One click, handed to the handler of the control that was clicked. */
  function Handle(g: Gallery, e: Event): (r: Gallery)
    ensures r.slides == g.slides
    ensures !e.view.attached ==> r == g
    ensures Valid(g) && Offered(g.slides, e.click) ==> Valid(r)
    ensures e.click.Previous? ==> r == ScrollLeft(g, e.view)
    ensures e.click.Next? ==> r == ScrollRight(g, e.view)
    ensures e.click.Dot? ==> r == ScrollToIndex(g, e.view, e.click.position)
  {
    match e.click
    case Previous => ScrollLeft(g, e.view)
    case Next => ScrollRight(g, e.view)
    case Dot(i) => ScrollToIndex(g, e.view, i)
  }

  predicate AllOffered(slides: nat, es: seq<Event>) {
    forall k :: 0 <= k < |es| ==> Offered(slides, es[k].click)
  }

  /** Any sequence of clicks on rendered controls keeps the index on a slide. */
  function Run(g: Gallery, es: seq<Event>): (r: Gallery)
    requires Valid(g) && AllOffered(g.slides, es)
    ensures Valid(r) && r.slides == g.slides
    decreases |es|
  {
    if |es| == 0 then g else Run(Handle(g, es[0]), es[1..])
  }

  /** With one stable slide width, the scroll target always follows the index. */
  lemma {:induction false} RunStaysAligned(g: Gallery, es: seq<Event>, v: Viewport)
    requires Valid(g) && AllOffered(g.slides, es) && Aligned(g, v)
    requires forall k :: 0 <= k < |es| ==> es[k].view == v
    ensures Aligned(Run(g, es), v)
    decreases |es|
  {
    if |es| > 0 {
      var h := Handle(g, es[0]);
      assert Aligned(h, v) by {
        match es[0].click
        case Previous =>
          if v.attached && g.index > 0 {
            assert h.offset == g.index * Stride(v) - Stride(v) == (g.index - 1) * Stride(v);
          }
        case Next =>
          if v.attached && g.index < g.slides - 1 {
            assert h.offset == g.index * Stride(v) + Stride(v) == (g.index + 1) * Stride(v);
          }
        case Dot(_) =>
      }
      RunStaysAligned(h, es[1..], v);
    }
  }

  /** A step to the right that moved is undone by a step to the left. */
  lemma LeftUndoesRight(g: Gallery, v: Viewport)
    requires Valid(g) && v.attached && g.index < g.slides - 1
    ensures ScrollLeft(ScrollRight(g, v), v) == g
  {
  }

  /** A step to the left that moved is undone by a step to the right. */
  lemma RightUndoesLeft(g: Gallery, v: Viewport)
    requires Valid(g) && v.attached && g.index > 0
    ensures ScrollRight(ScrollLeft(g, v), v) == g
  {
  }

  /** The pagination dots: dot `k` is highlighted when it is the current slide. */
  function Dots(g: Gallery): (dots: seq<bool>)
    ensures |dots| == g.slides
  {
    seq(g.slides, k => k == g.index)
  }

  /** On a carousel with slides, exactly one dot is highlighted: the current one. */
  lemma ExactlyOneActiveDot(g: Gallery)
    requires Valid(g) && g.slides > 0
    ensures Dots(g)[g.index]
    ensures forall k :: 0 <= k < g.slides && Dots(g)[k] ==> k == g.index
  {
  }
}

=== FILE: cart_drawer.dfy ===
/**
  The cart drawer of the product details page: one line item whose quantity
  the shopper adjusts, the subtotal it implies, and progress towards the free
  shipping threshold. The drawer is drawn only once it has mounted and while
  the page has it open.
 */
module CartDrawer {
  import opened Js
  import opened Numbers

  /** The line item the page hands to the drawer; `price` is display text such as "$66". */
  datatype CartItem = CartItem(
    title: string,
    variant: string,
    size: string,
    price: string,
    compareAtPrice: string,
    image: string,
    quantity: int)

  /** The drawer's own state: the quantity shown, and whether it has mounted. */
  datatype Drawer = Drawer(quantity: int, mounted: bool)

  /** Orders with a subtotal of at least this many dollars ship free. */
  const FreeShippingThreshold: nat := 75

  /** The drawer takes its starting quantity from the item and mounts afterwards. */
  function Init(item: CartItem): (d: Drawer)
    ensures d.quantity == item.quantity && !d.mounted
  {
    Drawer(item.quantity, false)
  }

  /** The effect that runs once the drawer is in the page. */
  function Mount(d: Drawer): (r: Drawer)
    ensures r.mounted && r.quantity == d.quantity
  {
    d.(mounted := true)
  }

  /** The "+" button. */
  function Increment(d: Drawer): (r: Drawer)
    ensures r.quantity == d.quantity + 1 && r.mounted == d.mounted
  {
    d.(quantity := d.quantity + 1)
  }

  /** The "-" button: one less, but never below 1. */
  function Decrement(d: Drawer): (r: Drawer)
    ensures r.quantity >= 1 && r.mounted == d.mounted
    ensures d.quantity >= 2 ==> r.quantity == d.quantity - 1
    ensures d.quantity <= 2 ==> r.quantity == 1
  {
    d.(quantity := if 1 >= d.quantity - 1 then 1 else d.quantity - 1)
  }

  /** Removing one item undoes adding one, whenever there was at least one. */
  lemma DecrementUndoesIncrement(d: Drawer)
    requires d.quantity >= 1
    ensures Decrement(Increment(d)) == d
  {
  }

  /** The two quantity buttons of the line item. */
  datatype QuantityClick = Plus | Minus

  /** A click on a quantity button: "+" adds one, "-" removes one down to a floor of 1. */
  function Press(d: Drawer, c: QuantityClick): (r: Drawer)
    ensures c.Plus? ==> r == Increment(d)
    ensures c.Minus? ==> r == Decrement(d)
  {
    match c
    case Plus => Increment(d)
    case Minus => Decrement(d)
  }

  /** A sequence of quantity clicks, applied in order; only the quantity changes. */
  function PressAll(d: Drawer, cs: seq<QuantityClick>): (r: Drawer)
    ensures |cs| == 0 ==> r == d
    ensures r.mounted == d.mounted
    decreases |cs|
  {
    if |cs| == 0 then d else PressAll(Press(d, cs[0]), cs[1..])
  }

  /** From a positive quantity, no sequence of clicks takes it below 1. */
  lemma {:induction false} QuantityStaysPositive(d: Drawer, cs: seq<QuantityClick>)
    requires d.quantity >= 1
    ensures PressAll(d, cs).quantity >= 1
    ensures PressAll(d, cs).quantity <= d.quantity + |cs|
    decreases |cs|
  {
    if |cs| > 0 {
      QuantityStaysPositive(Press(d, cs[0]), cs[1..]);
    }
  }

  /** The position of the first `c` in `s`, if any. */
  function IndexOf(s: string, c: char): (r: Option<nat>)
    ensures r.None? <==> c !in s
    ensures r.Some? ==> r.value < |s| && s[r.value] == c && c !in s[..r.value]
  {
    if |s| == 0 then None
    else if s[0] == c then Some(0)
    else
      match IndexOf(s[1..], c)
      case None => None
      case Some(i) =>
        assert s[..i + 1] == [s[0]] + s[1..][..i];
        Some(i + 1)
  }

  /** Removing the dollar sign from a price: only the first one goes, as with a string pattern replace. */
  function StripDollar(s: string): (r: string)
    ensures '$' !in s ==> r == s
    ensures '$' in s ==> |r| == |s| - 1
    ensures '$' in s ==> exists i :: 0 <= i < |s| && s[i] == '$' && '$' !in s[..i] && r == s[..i] + s[i + 1..]
  {
    match IndexOf(s, '$')
    case None => s
    case Some(i) => s[..i] + s[i + 1..]
  }

  /** The unit price: the price text read as a number once its dollar sign is removed. */
  function UnitPrice(item: CartItem): (r: Num)
    ensures '$' !in item.price ==> r == ParseFloat(item.price)
    ensures |item.price| > 0 && item.price[0] == '$' ==> r == ParseFloat(item.price[1..])
  {
    var p := item.price;
    assert |p| > 0 && p[0] == '$' ==> StripDollar(p) == p[1..] by {
      if |p| > 0 && p[0] == '$' {
        assert IndexOf(p, '$') == Some(0);
        assert p[..0] + p[1..] == p[1..];
      }
    }
    ParseFloat(StripDollar(item.price))
  }

  /** The line total: the unit price times the quantity currently shown; `NaN` when the price does not parse. */
  function Subtotal(item: CartItem, d: Drawer): (r: Num)
    ensures r.NaN? <==> UnitPrice(item).NaN?
  {
    Mul(UnitPrice(item), Fin(d.quantity as real))
  }

  /** A parsed line total is the unit price counted once per unit of the quantity shown. */
  lemma SubtotalIsPriceTimesQuantity(item: CartItem, d: Drawer)
    ensures Subtotal(item, d).Fin? ==> Subtotal(item, d).val == UnitPrice(item).val * d.quantity as real
  {
    MulByCount(UnitPrice(item), d.quantity);
  }

  /** A whole-dollar price "$n" has unit price n. */
  lemma UnitPriceOfWholeDollars(item: CartItem, n: nat)
    requires item.price == "$" + NatToString(n)
    ensures UnitPrice(item) == Fin(n as real)
  {
    assert StripDollar(item.price) == NatToString(n) by {
      assert IndexOf(item.price, '$') == Some(0);
      assert item.price[..0] + item.price[1..] == NatToString(n);
    }
    ParseFloatOfNat(n);
  }

  /** A whole-dollar price "$n" gives a subtotal of n times the quantity. */
  lemma SubtotalOfWholeDollars(item: CartItem, d: Drawer, n: nat)
    requires item.price == "$" + NatToString(n)
    ensures Subtotal(item, d) == Mul(Fin(n as real), Fin(d.quantity as real))
  {
    UnitPriceOfWholeDollars(item, n);
  }

  /** What is left to spend before shipping is free, never below 0. */
  function AmountToFreeShipping(subtotal: Num): (r: Num)
    ensures subtotal.NaN? <==> r.NaN?
    ensures r.Fin? ==> r.val >= 0.0
    ensures subtotal.Fin? && subtotal.val <= FreeShippingThreshold as real ==>
              r == Fin(FreeShippingThreshold as real - subtotal.val)
    ensures subtotal.Fin? && subtotal.val >= FreeShippingThreshold as real ==> r == Fin(0.0)
  {
    Max(Fin(0.0), Sub(Fin(FreeShippingThreshold as real), subtotal))
  }

  /** The filled fraction of the progress bar: the subtotal over the threshold, capped at 1. */
  function ShippingProgress(subtotal: Num): (r: Num)
    ensures subtotal.NaN? <==> r.NaN?
    ensures r.Fin? ==> r.val <= 1.0
    ensures subtotal.Fin? ==> (r.val == 1.0 <==> subtotal.val >= FreeShippingThreshold as real)
    ensures subtotal.Fin? && subtotal.val >= 0.0 ==> r.val >= 0.0
    ensures subtotal.Fin? && subtotal.val < FreeShippingThreshold as real ==>
              r.val * FreeShippingThreshold as real == subtotal.val
  {
    Min(Fin(1.0), Div(subtotal, FreeShippingThreshold as real))
  }

  const EarnedMessage: string := "You've earned free shipping!"

  /** The header line: how much more to spend, or that free shipping is earned. */
  function ShippingMessage(amount: Num): (r: string)
    ensures r == EarnedMessage <==> !Greater(amount, Fin(0.0))
    ensures Greater(amount, Fin(0.0)) ==>
              var shown := ToFixed0(amount);
              r == "Spend $" + shown + " more to earn free shipping!" && AllDigits(shown)
  {
    if Greater(amount, Fin(0.0)) then
      "Spend $" + ToFixed0(amount) + " more to earn free shipping!"
    else
      EarnedMessage
  }

  /**
    For a parsable price the header congratulates exactly when nothing is left
    to spend, that is when the subtotal reaches the threshold.
   */
  lemma MessageMatchesThreshold(subtotal: Num)
    requires subtotal.Fin?
    ensures ShippingMessage(AmountToFreeShipping(subtotal)) == EarnedMessage
            <==> AmountToFreeShipping(subtotal) == Fin(0.0)
    ensures AmountToFreeShipping(subtotal) == Fin(0.0) <==> subtotal.val >= FreeShippingThreshold as real
  {
    var a := AmountToFreeShipping(subtotal);
    if Greater(a, Fin(0.0)) {
      assert ShippingMessage(a)[0] == 'S';
      assert EarnedMessage[0] == 'Y';
    }
  }

  /** A price text that does not parse makes the header claim free shipping. */
  lemma UnparsablePriceClaimsFreeShipping(item: CartItem, d: Drawer)
    requires UnitPrice(item).NaN?
    ensures ShippingMessage(AmountToFreeShipping(Subtotal(item, d))) == EarnedMessage
  {
  }

  /** Worked example: a subtotal of 30 leaves 45 to spend... */
  lemma ShippingExampleBelow()
    ensures AmountToFreeShipping(Fin(30.0)) == Fin(45.0)
    ensures ShippingProgress(Fin(30.0)) == Fin(0.4)
  {
  }

  /** ...and the header asks for $45 more. */
  lemma ShippingMessageExample()
    ensures ShippingMessage(Fin(45.0)) == "Spend $45 more to earn free shipping!"
  {
    ToFixed0Of45();
  }

  lemma ToFixed0Of45()
    ensures ToFixed0(Fin(45.0)) == "45"
  {
    ToFixed0OfNat(45);
    assert NatToString(4) == "4";
    assert NatToString(45) == NatToString(4) + "5";
  }

  /** Worked example: a subtotal of 80 fills the bar and earns free shipping. */
  lemma ShippingExampleAbove()
    ensures AmountToFreeShipping(Fin(80.0)) == Fin(0.0)
    ensures ShippingProgress(Fin(80.0)) == Fin(1.0)
    ensures ShippingMessage(AmountToFreeShipping(Fin(80.0))) == EarnedMessage
  {
  }

  /** What the open drawer shows. */
  datatype DrawerView = DrawerView(
    heading: string,
    message: string,
    progress: Num,
    title: string,
    variant: string,
    sizeLabel: string,
    price: string,
    compareAtPrice: string,
    image: string,
    quantity: int,
    subtotal: string)

  /** The drawer draws nothing unless it is both open and mounted. */
  function Render(item: CartItem, isOpen: bool, d: Drawer): (r: Option<DrawerView>)
    ensures r.Some? <==> isOpen && d.mounted
    ensures r.Some? ==> r.value.quantity == d.quantity
                        && r.value.heading == "Cart (" + IntToString(d.quantity) + ")"
    ensures r.Some? ==> r.value.title == item.title && r.value.variant == item.variant
                        && r.value.price == item.price && r.value.compareAtPrice == item.compareAtPrice
                        && r.value.image == item.image && r.value.sizeLabel == "Size: " + item.size
    ensures r.Some? ==> var subtotal := Subtotal(item, d);
                        r.value.message == ShippingMessage(AmountToFreeShipping(subtotal))
                        && r.value.progress == ShippingProgress(subtotal)
                        && r.value.subtotal == "$" + ToFixed0(subtotal)
  {
    if !isOpen || !d.mounted then None
    else
      var subtotal := Subtotal(item, d);
      var amount := AmountToFreeShipping(subtotal);
      Some(DrawerView(
        "Cart (" + IntToString(d.quantity) + ")",
        ShippingMessage(amount),
        ShippingProgress(subtotal),
        item.title,
        item.variant,
        "Size: " + item.size,
        item.price,
        item.compareAtPrice,
        item.image,
        d.quantity,
        "$" + ToFixed0(subtotal)))
  }

  /** Before the mount effect has run the drawer is invisible even when open; after it, visible exactly when open. */
  lemma VisibleOnceMounted(item: CartItem, isOpen: bool)
    ensures Render(item, isOpen, Init(item)).None?
    ensures Render(item, isOpen, Mount(Init(item))).Some? <==> isOpen
  {
  }
}

=== FILE: gift_cards.dfy ===
/**
  The stand-alone blocks of the gifts grid: the square card, the tall card and
  the hero. Each takes an image setting that the page builder may hand over as
  a URL string, an image object, or nothing, and normalises it to an image
  object, substituting a placeholder when nothing is set.
 */
module GiftCards {
  import opened Js

  /** An image object; its URL may be missing. */
  datatype WeaverseImage = WeaverseImage(url: Option<string>)

  /** The shapes an image setting arrives in. */
  datatype ImageSetting = Undefined | Null | Text(s: string) | Object(img: WeaverseImage)

  /** The placeholder images of the page builder, which this model does not fix. */
  datatype Placeholders = Placeholders(product1: string, collection1: string)

  /**
    A string becomes an image with that URL, even when it is empty; an object (always
    truthy) is kept; an unset value becomes the placeholder.
   */
  function Normalize(x: ImageSetting, placeholder: string): (r: WeaverseImage)
    ensures x.Text? ==> r.url == Some(x.s)
    ensures x.Object? ==> r == x.img
    ensures x.Undefined? || x.Null? ==> r.url == Some(placeholder)
  {
    match x
    case Text(s) => WeaverseImage(Some(s))
    case Object(img) => img
    case _ => WeaverseImage(Some(placeholder))
  }

  /** Normalising an image object once more leaves it as it is. */
  lemma NormalizeIsIdempotent(x: ImageSetting, p: string, q: string)
    ensures Normalize(Object(Normalize(x, p)), q) == Normalize(x, p)
  {
  }

  /** The two card blocks differ only in layout. */
  datatype Shape = Square | Tall

  /** What a card block draws: a link around the normalised image. */
  datatype CardView = CardView(shape: Shape, href: string, linkTitle: string, alt: string, image: WeaverseImage)

  /** A square or tall card block; the square card is the product placeholder's user. */
  function RenderCard(shape: Shape, cardImage: ImageSetting, cardHref: Option<string>, cardTitle: Option<string>,
                      ph: Placeholders): (r: Option<CardView>)
    ensures r.None? <==> !Truthy(Normalize(cardImage, ph.product1).url)
    ensures r.None? <==> (cardImage.Text? && cardImage.s == "")
                         || (cardImage.Object? && !Truthy(cardImage.img.url))
                         || ((cardImage.Undefined? || cardImage.Null?) && ph.product1 == "")
    ensures r.Some? ==> r.value.shape == shape && r.value.image == Normalize(cardImage, ph.product1)
    ensures r.Some? ==> r.value.href != "" && (Truthy(cardHref) ==> r.value.href == cardHref.value)
    ensures r.Some? && !Truthy(cardHref) ==> r.value.href == "#"
    ensures r.Some? ==> r.value.linkTitle == r.value.alt && r.value.alt != ""
    ensures r.Some? && Truthy(cardTitle) ==> r.value.alt == cardTitle.value
    ensures r.Some? && !Truthy(cardTitle) ==> r.value.alt == "Featured gift"
  {
    var imageData := Normalize(cardImage, ph.product1);
    if !Truthy(imageData.url) then None
    else
      var title := Or(cardTitle, "Featured gift");
      Some(CardView(shape, Or(cardHref, "#"), title, title, imageData))
  }

  /** The tall card renders exactly when the square card does, with the same link, title and image. */
  lemma TallMatchesSquare(cardImage: ImageSetting, cardHref: Option<string>, cardTitle: Option<string>, ph: Placeholders)
    ensures RenderCard(Tall, cardImage, cardHref, cardTitle, ph).Some?
            <==> RenderCard(Square, cardImage, cardHref, cardTitle, ph).Some?
    ensures RenderCard(Tall, cardImage, cardHref, cardTitle, ph).Some? ==>
              RenderCard(Tall, cardImage, cardHref, cardTitle, ph).value
              == RenderCard(Square, cardImage, cardHref, cardTitle, ph).value.(shape := Tall)
  {
  }

  /** A card left unset shows the placeholder whenever there is one. */
  lemma UnsetCardShowsPlaceholder(shape: Shape, cardHref: Option<string>, cardTitle: Option<string>, ph: Placeholders)
    requires ph.product1 != ""
    ensures RenderCard(shape, Undefined, cardHref, cardTitle, ph).Some?
    ensures RenderCard(shape, Undefined, cardHref, cardTitle, ph).value.image.url == Some(ph.product1)
  {
  }

  /** What the hero block draws: its container always, the image only when it has a URL. */
  datatype HeroView = HeroView(image: Option<WeaverseImage>, alt: string)

  function RenderHero(heroImage: ImageSetting, ph: Placeholders): (r: HeroView)
    ensures r.image.Some? <==> Truthy(Normalize(heroImage, ph.collection1).url)
    ensures r.image.Some? ==> r.image.value == Normalize(heroImage, ph.collection1)
    ensures r.alt == "Featured gifts hero"
  {
    var imageData := Normalize(heroImage, ph.collection1);
    HeroView(if Truthy(imageData.url) then Some(imageData) else None, "Featured gifts hero")
  }

  /** The hero image is missing exactly when it was given as "" or as an object without a URL, or the placeholder is empty. */
  lemma HeroImageMissing(heroImage: ImageSetting, ph: Placeholders)
    ensures RenderHero(heroImage, ph).image.None?
            <==> (heroImage.Text? && heroImage.s == "")
                 || (heroImage.Object? && !Truthy(heroImage.img.url))
                 || ((heroImage.Undefined? || heroImage.Null?) && ph.collection1 == "")
  {
  }
}

=== FILE: gifts_grid.dfy ===
/**
  The featured gifts grid section: a hero image and three gift cards (top,
  tall, bottom). Every setting the merchant leaves empty falls back, field by
  field, to a built-in default, so the section always shows the hero image and
  all three cards.
 */
module GiftsGrid {
  import opened Js

  /** A gift card after the settings are resolved; any field may be absent. */
  datatype GiftCard = GiftCard(title: Option<string>, image: Option<string>, href: Option<string>)

  /** A card with every field given. */
  datatype CardDefaults = CardDefaults(title: string, image: string, href: string)

  const DefaultHeroImage: string :=
    "https://www.allbirds.com/cdn/shop/files/25Q4_Holiday_Site_ColorGrid-01_Desktop-Mobile_1x1_565e2d02-794c-483e-9d0b-15386857e996.jpg?v=1761846551&width=1024"

  const DefaultTopCard: CardDefaults := CardDefaults(
    "Women's Breezer Mary Jane",
    "https://www.allbirds.com/cdn/shop/files/25Q4_Holiday_Batch2_Site_ColorGrid-02_Womens_MaryJaneDesktop-Mobile_1x1_b80f3bc7-419a-43e0-bab5-98db12f96994.jpg?v=1762910389&width=1024",
    "https://www.allbirds.com/products/womens-breezer-mary-jane")

  const DefaultTallCard: CardDefaults := CardDefaults(
    "Allbirds Wool Slipper",
    "https://www.allbirds.com/cdn/shop/files/25Q4_Holiday_Site_ColorGrid-04_Desktop-Mobile_9x16_b29b3c9c-8ecc-43ea-9739-46c2df3a008a.jpg?v=1761846550&width=1024",
    "https://www.allbirds.com/products/allbirds-slipper")

  const DefaultBottomCard: CardDefaults := CardDefaults(
    "Men's Wool Cruiser Mid Select",
    "https://www.allbirds.com/cdn/shop/files/25Q4_Holiday_Site_ColorGrid-05_Desktop-Mobile_1x1_151d7121-1b2d-455c-8a6d-df7a69a81d02.jpg?v=1761846550&width=1024",
    "https://www.allbirds.com/products/mens-wool-cruiser-mid-select")

  /** The section's settings, each possibly unset. */
  datatype Settings = Settings(
    heroImage: Option<string>,
    topCardTitle: Option<string>,
    topCardImage: Option<string>,
    topCardHref: Option<string>,
    tallCardTitle: Option<string>,
    tallCardImage: Option<string>,
    tallCardHref: Option<string>,
    bottomCardTitle: Option<string>,
    bottomCardImage: Option<string>,
    bottomCardHref: Option<string>)

  /** `value || fallback`, for one field. */
  function Field(value: Option<string>, fallback: string): (r: string)
    ensures Truthy(value) ==> r == value.value
    ensures !Truthy(value) ==> r == fallback
  {
    Or(value, fallback)
  }

  /** Resolve one card: each field independently takes the setting when it is non-empty. */
  function Resolve(title: Option<string>, image: Option<string>, href: Option<string>, d: CardDefaults): (c: GiftCard)
    ensures c.title.Some? && c.image.Some? && c.href.Some?
    ensures Truthy(title) ==> c.title == title
    ensures !Truthy(title) ==> c.title == Some(d.title)
    ensures Truthy(image) ==> c.image == image
    ensures !Truthy(image) ==> c.image == Some(d.image)
    ensures Truthy(href) ==> c.href == href
    ensures !Truthy(href) ==> c.href == Some(d.href)
  {
    GiftCard(Some(Field(title, d.title)), Some(Field(image, d.image)), Some(Field(href, d.href)))
  }

  /** The defaults are themselves complete, so a resolved card has only non-empty fields. */
  predicate Complete(d: CardDefaults) {
    d.title != "" && d.image != "" && d.href != ""
  }

  lemma DefaultsComplete()
    ensures DefaultHeroImage != ""
    ensures Complete(DefaultTopCard) && Complete(DefaultTallCard) && Complete(DefaultBottomCard)
  {
  }

  /** Because of `||`, an empty setting is the same as an unset one, field by field. */
  lemma EmptyIsUnset(title: Option<string>, image: Option<string>, href: Option<string>, d: CardDefaults)
    ensures Resolve(Some(""), image, href, d) == Resolve(None, image, href, d)
    ensures Resolve(title, Some(""), href, d) == Resolve(title, None, href, d)
    ensures Resolve(title, image, Some(""), d) == Resolve(title, image, None, d)
  {
  }

  /** Resolving an already resolved card changes nothing. */
  lemma ResolveIsIdempotent(title: Option<string>, image: Option<string>, href: Option<string>, d: CardDefaults)
    requires Complete(d)
    ensures var c := Resolve(title, image, href, d);
            Resolve(c.title, c.image, c.href, d) == c
  {
  }

  /** What `renderCard` draws: a link around an image. */
  datatype CardView = CardView(href: string, linkTitle: Option<string>, alt: string, src: string)

  /** The grid's card renderer: nothing without an image; the link falls back to "#" only when it is unset. */
  function RenderCard(c: GiftCard): (r: Option<CardView>)
    ensures r.None? <==> !Truthy(c.image)
    ensures r.Some? ==> r.value.src == c.image.value && r.value.linkTitle == c.title
    ensures r.Some? && c.href.Some? ==> r.value.href == c.href.value
    ensures r.Some? && c.href.None? ==> r.value.href == "#"
    ensures r.Some? && Truthy(c.title) ==> r.value.alt == c.title.value
    ensures r.Some? && !Truthy(c.title) ==> r.value.alt == "Featured gift"
  {
    if !Truthy(c.image) then None
    else Some(CardView(c.href.GetOr("#"), c.title, Or(c.title, "Featured gift"), c.image.value))
  }

  /**
    Unlike the stand-alone card blocks, which use `||`, the grid's card keeps
    an explicitly empty link instead of replacing it with "#".
   */
  lemma EmptyHrefIsKept(title: Option<string>, image: string)
    requires image != ""
    ensures RenderCard(GiftCard(title, Some(image), Some(""))).value.href == ""
  {
  }

  /** The top card: the top-card settings over the top card's defaults. */
  function ResolvedTop(s: Settings): (c: GiftCard)
    ensures c.title == Some(Field(s.topCardTitle, DefaultTopCard.title))
    ensures c.image == Some(Field(s.topCardImage, DefaultTopCard.image))
    ensures c.href == Some(Field(s.topCardHref, DefaultTopCard.href))
  {
    Resolve(s.topCardTitle, s.topCardImage, s.topCardHref, DefaultTopCard)
  }

  /** The tall card: the tall-card settings over the tall card's defaults. */
  function ResolvedTall(s: Settings): (c: GiftCard)
    ensures c.title == Some(Field(s.tallCardTitle, DefaultTallCard.title))
    ensures c.image == Some(Field(s.tallCardImage, DefaultTallCard.image))
    ensures c.href == Some(Field(s.tallCardHref, DefaultTallCard.href))
  {
    Resolve(s.tallCardTitle, s.tallCardImage, s.tallCardHref, DefaultTallCard)
  }

  /** The bottom card: the bottom-card settings over the bottom card's defaults. */
  function ResolvedBottom(s: Settings): (c: GiftCard)
    ensures c.title == Some(Field(s.bottomCardTitle, DefaultBottomCard.title))
    ensures c.image == Some(Field(s.bottomCardImage, DefaultBottomCard.image))
    ensures c.href == Some(Field(s.bottomCardHref, DefaultBottomCard.href))
  {
    Resolve(s.bottomCardTitle, s.bottomCardImage, s.bottomCardHref, DefaultBottomCard)
  }

  /** The whole grid: the hero image, if drawn, and the drawn cards in page order. */
  datatype GridView = GridView(hero: Option<string>, cards: seq<CardView>)

  /** `renderCard` returns null for a card that is not drawn; those are dropped. */
  function Drawn(cs: seq<Option<CardView>>): (r: seq<CardView>)
    ensures |r| <= |cs|
    ensures (forall k :: 0 <= k < |cs| ==> cs[k].Some?) ==> |r| == |cs| && forall k :: 0 <= k < |cs| ==> r[k] == cs[k].value
  {
    if |cs| == 0 then []
    else
      var rest := Drawn(cs[1..]);
      if cs[0].Some? then [cs[0].value] + rest else rest
  }

  function Render(s: Settings): (g: GridView)
    ensures g.hero.Some? && g.hero.value != ""
    ensures Truthy(s.heroImage) ==> g.hero == s.heroImage
    ensures !Truthy(s.heroImage) ==> g.hero == Some(DefaultHeroImage)
  {
    var heroSrc := Field(s.heroImage, DefaultHeroImage);
    GridView(if heroSrc != "" then Some(heroSrc) else None,
             Drawn([RenderCard(ResolvedTop(s)), RenderCard(ResolvedTall(s)), RenderCard(ResolvedBottom(s))]))
  }

  /**
    Whatever the settings, the grid draws all three cards, top, tall, bottom,
    each with a non-empty link and alt text equal to its resolved title: the
    "no image" branch of the card renderer and its "#" link fallback are never
    taken here.
   */
  lemma AllCardsDrawn(s: Settings)
    ensures |Render(s).cards| == 3
    ensures Render(s).cards[0] == RenderCard(ResolvedTop(s)).value
    ensures Render(s).cards[1] == RenderCard(ResolvedTall(s)).value
    ensures Render(s).cards[2] == RenderCard(ResolvedBottom(s)).value
    ensures forall k :: 0 <= k < 3 ==> Render(s).cards[k].href != "" && Render(s).cards[k].src != ""
    ensures forall k :: 0 <= k < 3 ==> Some(Render(s).cards[k].alt) == Render(s).cards[k].linkTitle
    ensures Render(s).cards[0].src == Field(s.topCardImage, DefaultTopCard.image)
            && Render(s).cards[0].alt == Field(s.topCardTitle, DefaultTopCard.title)
            && Render(s).cards[0].href == Field(s.topCardHref, DefaultTopCard.href)
    ensures Render(s).cards[1].src == Field(s.tallCardImage, DefaultTallCard.image)
            && Render(s).cards[1].alt == Field(s.tallCardTitle, DefaultTallCard.title)
            && Render(s).cards[1].href == Field(s.tallCardHref, DefaultTallCard.href)
    ensures Render(s).cards[2].src == Field(s.bottomCardImage, DefaultBottomCard.image)
            && Render(s).cards[2].alt == Field(s.bottomCardTitle, DefaultBottomCard.title)
            && Render(s).cards[2].href == Field(s.bottomCardHref, DefaultBottomCard.href)
  {
    DefaultsComplete();
    var cs := [RenderCard(ResolvedTop(s)), RenderCard(ResolvedTall(s)), RenderCard(ResolvedBottom(s))];
    assert forall k :: 0 <= k < |cs| ==> cs[k].Some?;
  }

  /** With nothing set, the grid shows exactly the built-in cards. */
  lemma EmptySettingsShowDefaults()
    ensures var g := Render(Settings(None, None, None, None, None, None, None, None, None, None));
            g.hero == Some(DefaultHeroImage)
            && |g.cards| == 3
            && g.cards[0] == CardView(DefaultTopCard.href, Some(DefaultTopCard.title), DefaultTopCard.title, DefaultTopCard.image)
            && g.cards[1] == CardView(DefaultTallCard.href, Some(DefaultTallCard.title), DefaultTallCard.title, DefaultTallCard.image)
            && g.cards[2] == CardView(DefaultBottomCard.href, Some(DefaultBottomCard.title), DefaultBottomCard.title, DefaultBottomCard.image)
  {
    AllCardsDrawn(Settings(None, None, None, None, None, None, None, None, None, None));
  }
}

=== FILE: js.dfy ===
/**
  The small part of JavaScript's value semantics the storefront sections rely
  on: optional values (`undefined`/`null`), string truthiness as used by `||`,
  nullish coalescing `??`, and numbers that may be `NaN` together with the
  `Math.max`/`Math.min` and comparison rules that apply to them.
 */
module Js {

  /** An optional value: `None` stands for `undefined` or `null`. */
  datatype Option<+T> = None | Some(value: T) {

    /** `v ?? d`: the value when present, the default otherwise. */
    function GetOr(default: T): T {
      match this
      case Some(v) => v
      case None => default
    }
  }

  /** A string is truthy in JavaScript exactly when it is present and non-empty. */
  predicate Truthy(v: Option<string>) {
    v.Some? && v.value != ""
  }

  /** `v || d` for an optional string `v` and a string default `d`. */
  function Or(v: Option<string>, d: string): string {
    if Truthy(v) then v.value else d
  }

  /**
    A JavaScript number as the sections use it: either `NaN` or a finite value.
    Doubles are modelled by exact reals; rounding of binary floating point is
    not part of this model.
   */
  datatype Num = NaN | Fin(val: real)

  /** `Math.max(a, b)`: `NaN` if either argument is `NaN`. */
  function Max(a: Num, b: Num): Num {
    if a.NaN? || b.NaN? then NaN
    else if a.val >= b.val then a else b
  }

  /** `Math.min(a, b)`: `NaN` if either argument is `NaN`. */
  function Min(a: Num, b: Num): Num {
    if a.NaN? || b.NaN? then NaN
    else if a.val <= b.val then a else b
  }

  /** `a - b` */
  function Sub(a: Num, b: Num): Num {
    if a.NaN? || b.NaN? then NaN else Fin(a.val - b.val)
  }

  /** `a * b` */
  function Mul(a: Num, b: Num): (r: Num)
    ensures r.NaN? <==> a.NaN? || b.NaN?
    ensures r.Fin? ==> r.val == a.val * b.val
  {
    if a.NaN? || b.NaN? then NaN else Fin(a.val * b.val)
  }

  /** A finite product by a count, as a fact about `Mul` alone. */
  lemma MulByCount(a: Num, n: int)
    ensures Mul(a, Fin(n as real)).Fin? ==> Mul(a, Fin(n as real)).val == a.val * n as real
  {
  }

  /** `a / b` for a non-zero finite divisor. */
  function Div(a: Num, b: real): Num
    requires b != 0.0
  {
    if a.NaN? then NaN else Fin(a.val / b)
  }

  /** `a > b`: every comparison with `NaN` is false. */
  predicate Greater(a: Num, b: Num) {
    a.Fin? && b.Fin? && a.val > b.val
  }
}

=== FILE: numbers.dfy ===
/**
  Conversions between numbers and strings that the sections perform on prices:
  the decimal text of a whole number (template literals), `parseFloat` and
  `Number.prototype.toFixed(0)`, over exact reals.
 */
module Numbers {
  import opened Js

  predicate IsDigit(c: char) {
    '0' <= c <= '9'
  }

  predicate AllDigits(s: string) {
    forall i :: 0 <= i < |s| ==> IsDigit(s[i])
  }

  function DigitValue(c: char): nat {
    if IsDigit(c) then c as int - '0' as int else 0
  }

  function DigitChar(d: nat): (c: char)
    requires d < 10
    ensures IsDigit(c) && DigitValue(c) == d
  {
    ('0' as int + d) as char
  }

  /** The value of a digit string read most significant digit first. */
  function DigitsValue(s: string): nat {
    if |s| == 0 then 0 else DigitsValue(s[..|s| - 1]) * 10 + DigitValue(s[|s| - 1])
  }

  /** The value of the digits after a decimal point: "25" is 0.25. */
  function FractionValue(f: string): (r: real)
    ensures 0.0 <= r <= 1.0
  {
    if |f| == 0 then 0.0 else (DigitValue(f[0]) as real + FractionValue(f[1..])) / 10.0
  }

  /** The decimal text JavaScript produces for a whole number (`${n}`). */
  function NatToString(n: nat): (r: string)
    ensures |r| >= 1 && AllDigits(r)
    ensures r[0] == '0' ==> n == 0 && |r| == 1
    decreases n
  {
    if n < 10 then [DigitChar(n)] else NatToString(n / 10) + [DigitChar(n % 10)]
  }

  /** The decimal text JavaScript produces for an integer. */
  function IntToString(i: int): (r: string)
    ensures i >= 0 ==> r == NatToString(i)
    ensures i < 0 ==> r == "-" + NatToString(-i)
  {
    if i < 0 then "-" + NatToString(-i) else NatToString(i)
  }

  /** Reading back the text of a whole number gives the number. */
  lemma {:induction false} NatToStringValue(n: nat)
    ensures DigitsValue(NatToString(n)) == n
    decreases n
  {
    if n >= 10 {
      var s := NatToString(n);
      assert s[..|s| - 1] == NatToString(n / 10);
      NatToStringValue(n / 10);
    }
  }

  /**
    The ASCII white space `parseFloat` skips before the number: space, tab,
    line feed, vertical tab, form feed and carriage return.
   */
  predicate IsSpace(c: char) {
    c == ' ' || c == '\t' || c == '\n' || c == '\U{000B}' || c == '\U{000C}' || c == '\r'
  }

  /** `s` without its leading white space. */
  function TrimStart(s: string): (r: string)
    ensures |r| <= |s| && r == s[|s| - |r|..]
    ensures forall i :: 0 <= i < |s| - |r| ==> IsSpace(s[i])
    ensures |r| > 0 ==> !IsSpace(r[0])
  {
    if |s| > 0 && IsSpace(s[0]) then TrimStart(s[1..]) else s
  }

  /** The longest prefix of `s` made of digits. */
  function DigitRun(s: string): (r: string)
    ensures r <= s && AllDigits(r)
    ensures |r| < |s| ==> !IsDigit(s[|r|])
  {
    if |s| > 0 && IsDigit(s[0]) then [s[0]] + DigitRun(s[1..]) else ""
  }

  /** `d` read as a whole part followed by the digits `f` of a decimal fraction. */
  function DecimalValue(d: string, f: string): real {
    DigitsValue(d) as real + FractionValue(f)
  }

  /**
    The unsigned decimal number at the start of `u`: digits, then optionally a
    point and more digits; `NaN` unless a digit comes first or right after a
    leading point.
   */
  function ParseUnsigned(u: string): (r: Num)
    ensures r.Fin? <==> |u| > 0 && (IsDigit(u[0]) || (u[0] == '.' && |u| > 1 && IsDigit(u[1])))
    ensures r.Fin? ==> r.val >= 0.0
  {
    var whole := DigitRun(u);
    var rest := u[|whole|..];
    var fraction := if |rest| > 0 && rest[0] == '.' then DigitRun(rest[1..]) else "";
    if |whole| == 0 && |fraction| == 0 then NaN else Fin(DecimalValue(whole, fraction))
  }

  /** Unary minus; `-NaN` is `NaN`. */
  function Negate(x: Num): Num {
    if x.NaN? then NaN else Fin(-x.val)
  }

  /**
    `parseFloat(s)`: leading white space is skipped, then an optional sign and
    the unsigned decimal number that follows it.
   */
  function ParseFloat(s: string): (r: Num)
    ensures TrimStart(s) == "" ==> r.NaN?
    ensures r.Fin? && r.val < 0.0 ==> TrimStart(s)[0] == '-'
    ensures |TrimStart(s)| > 0 && IsDigit(TrimStart(s)[0]) ==> r == ParseUnsigned(TrimStart(s))
  {
    var t := TrimStart(s);
    if |t| > 0 && t[0] == '-' then Negate(ParseUnsigned(t[1..]))
    else if |t| > 0 && t[0] == '+' then ParseUnsigned(t[1..])
    else ParseUnsigned(t)
  }

  /** `parseFloat` finds a number only where the text has a digit. */
  lemma ParseFloatNeedsDigit(s: string)
    ensures ParseFloat(s).Fin? ==> exists i :: 0 <= i < |s| && IsDigit(s[i])
  {
    var t := TrimStart(s);
    var k := |s| - |t|;
    if |t| > 0 && (t[0] == '-' || t[0] == '+') {
      if ParseUnsigned(t[1..]).Fin? {
        assert IsDigit(s[k + 1]) || IsDigit(s[k + 2]);
      }
    } else if ParseUnsigned(t).Fin? {
      assert IsDigit(s[k]) || IsDigit(s[k + 1]);
    }
  }

  /** Digits followed by a non-digit that is not a point: the digits are the number. */
  lemma ParseUnsignedOfDigits(d: string, rest: string)
    requires |d| > 0 && AllDigits(d)
    requires |rest| == 0 || (!IsDigit(rest[0]) && rest[0] != '.')
    ensures ParseUnsigned(d + rest) == Fin(DigitsValue(d) as real)
  {
    DigitRunStopsAt(d, rest);
    assert (d + rest)[|d|..] == rest;
  }

  /** A non-empty digit string parses to its decimal value. */
  lemma ParseFloatOfDigits(s: string)
    requires |s| > 0 && AllDigits(s)
    ensures ParseFloat(s) == Fin(DigitsValue(s) as real)
  {
    ParseFloatOfUnsigned(s);
    ParseUnsignedOfDigits(s, "");
    assert s + "" == s;
  }

  /** The digit run of digits followed by a non-digit is exactly those digits. */
  lemma {:induction false} DigitRunStopsAt(d: string, rest: string)
    requires AllDigits(d)
    requires |rest| == 0 || !IsDigit(rest[0])
    ensures DigitRun(d + rest) == d
  {
    if |d| > 0 {
      assert (d + rest)[1..] == d[1..] + rest;
      DigitRunStopsAt(d[1..], rest);
    } else {
      assert d + rest == rest;
    }
  }

  /** A fraction made of zeros is zero. */
  lemma {:induction false} ZerosValue(z: string)
    requires forall i :: 0 <= i < |z| ==> z[i] == '0'
    ensures FractionValue(z) == 0.0
  {
    if |z| > 0 {
      ZerosValue(z[1..]);
    }
  }

  /** Parsing the text of a whole number gives the number back. */
  lemma ParseFloatOfNat(n: nat)
    ensures ParseFloat(NatToString(n)) == Fin(n as real)
  {
    ParseFloatOfDigits(NatToString(n));
    NatToStringValue(n);
  }

  /**
    A whole amount written with a zero fraction, as the storefront writes
    money amounts ("66.0"), parses to the whole number.
   */
  lemma ParseFloatOfWholeAmount(n: nat, zeros: string)
    requires |zeros| > 0 && forall i :: 0 <= i < |zeros| ==> zeros[i] == '0'
    ensures ParseFloat(NatToString(n) + "." + zeros) == Fin(n as real)
  {
    var d := NatToString(n);
    var s := d + "." + zeros;
    assert ParseFloat(s) == ParseUnsigned(s) by {
      assert s[0] == d[0];
      ParseFloatOfUnsigned(s);
    }
    assert ParseUnsigned(s) == Fin(DecimalValue(d, zeros)) by {
      ParseUnsignedWithFraction(d, zeros);
    }
    assert DecimalValue(d, zeros) == n as real by {
      ZerosValue(zeros);
      NatToStringValue(n);
    }
  }

  /** Text that starts with a digit has no white space or sign to skip. */
  lemma ParseFloatOfUnsigned(s: string)
    requires |s| > 0 && IsDigit(s[0])
    ensures ParseFloat(s) == ParseUnsigned(s)
  {
    assert TrimStart(s) == s;
  }

  /** Digits, a point and more digits parse as a decimal fraction. */
  lemma ParseUnsignedWithFraction(d: string, f: string)
    requires |d| > 0 && AllDigits(d) && AllDigits(f)
    ensures ParseUnsigned(d + "." + f) == Fin(DecimalValue(d, f))
  {
    var s := d + "." + f;
    assert s == d + ("." + f);
    DigitRunStopsAt(d, "." + f);
    assert s[|d|..] == "." + f;
    assert ("." + f)[1..] == f;
    DigitRunStopsAt(f, "");
    assert f + "" == f;
  }

  /** The nearest whole number to a non-negative `x`, ties rounded up. */
  function RoundHalfUp(x: real): (n: nat)
    requires x >= 0.0
    ensures n as real - 0.5 <= x < n as real + 0.5
  {
    (x + 0.5).Floor
  }

  /**
    `x.toFixed(0)`: "NaN" for `NaN`, otherwise a minus sign for negative
    values followed by the magnitude rounded to the nearest whole number,
    ties away from zero.
   */
  function ToFixed0(x: Num): (r: string)
    ensures x.NaN? ==> r == "NaN"
    ensures x.Fin? && x.val >= 0.0 ==>
              AllDigits(r) && |r| >= 1 && DigitsValue(r) as real - 0.5 <= x.val < DigitsValue(r) as real + 0.5
              && (r[0] == '0' ==> |r| == 1)
    ensures x.Fin? && x.val < 0.0 ==>
              |r| >= 2 && r[0] == '-' && AllDigits(r[1..])
              && DigitsValue(r[1..]) as real - 0.5 <= -x.val < DigitsValue(r[1..]) as real + 0.5
              && (r[1] == '0' ==> |r| == 2)
  {
    match x
    case NaN => "NaN"
    case Fin(v) =>
      if v < 0.0 then
        var m := RoundHalfUp(-v);
        NatToStringValue(m);
        assert ("-" + NatToString(m))[1..] == NatToString(m);
        "-" + NatToString(m)
      else
        var m := RoundHalfUp(v);
        NatToStringValue(m);
        NatToString(m)
  }

  /** A whole number is written by `toFixed(0)` exactly as by a template literal. */
  lemma ToFixed0OfNat(n: nat)
    ensures ToFixed0(Fin(n as real)) == NatToString(n)
  {
    assert (n as real + 0.5).Floor == n;
  }
}

=== FILE: product_card.dfy ===
/**
  The view model of a featured product card: the fields the card shows,
  each derived from the storefront's product record with a chain of
  fallbacks.
 */
module ProductCard {
  import opened Js
  import opened Numbers

  datatype Swatch = Swatch(color: Option<string>)

  datatype OptionValue = OptionValue(name: string, swatch: Option<Swatch>)

  datatype ProductOption = ProductOption(name: string, optionValues: Option<seq<OptionValue>>)

  /** A money amount as the storefront sends it: decimal text such as "66.0". */
  datatype Money = Money(amount: string)

  datatype Image = Image(url: string)

  datatype Variant = Variant(title: string, image: Option<Image>, price: Option<Money>, compareAtPrice: Option<Money>)

  datatype Product = Product(
    title: string,
    handle: string,
    options: Option<seq<ProductOption>>,
    selectedOrFirstAvailableVariant: Option<Variant>,
    images: Option<seq<Image>>)

  const ColorOptionName: string := "Color"
  const DefaultTitle: string := "Product Title"
  const DefaultSwatch: string := "rgb(128, 128, 128)"
  const ProductPathPrefix: string := "/products/"

  /** The first option named exactly "Color", if any. */
  function FindColorOption(os: seq<ProductOption>): (r: Option<ProductOption>)
    ensures r.None? <==> forall i :: 0 <= i < |os| ==> os[i].name != ColorOptionName
    ensures r.Some? ==> exists i :: 0 <= i < |os| && os[i] == r.value && r.value.name == ColorOptionName
                                    && forall j :: 0 <= j < i ==> os[j].name != ColorOptionName
  {
    if |os| == 0 then None
    else if os[0].name == ColorOptionName then Some(os[0])
    else
      var r := FindColorOption(os[1..]);
      assert r.Some? ==> exists i :: 0 <= i < |os| && os[i] == r.value && r.value.name == ColorOptionName
                                     && forall j :: 0 <= j < i ==> os[j].name != ColorOptionName by {
        if r.Some? {
          var i :| 0 <= i < |os[1..]| && os[1..][i] == r.value
                   && forall j :: 0 <= j < i ==> os[1..][j].name != ColorOptionName;
          assert os[i + 1] == r.value;
          assert forall j :: 0 <= j < i + 1 ==> os[j].name != ColorOptionName by {
            forall j | 0 <= j < i + 1
              ensures os[j].name != ColorOptionName
            {
              if j > 0 {
                assert os[j] == os[1..][j - 1];
              }
            }
          }
        }
      }
      assert r.None? ==> forall i :: 0 <= i < |os| ==> os[i].name != ColorOptionName by {
        if r.None? {
          forall i | 0 <= i < |os|
            ensures os[i].name != ColorOptionName
          {
            if i > 0 {
              assert os[i] == os[1..][i - 1];
            }
          }
        }
      }
      r
  }

  /** The first value of the colour option, if there is a colour option and it has values. */
  function ColorValue(p: Product): (r: Option<OptionValue>)
    ensures r.Some? <==> p.options.Some? && FindColorOption(p.options.value).Some?
                         && FindColorOption(p.options.value).value.optionValues.Some?
                         && |FindColorOption(p.options.value).value.optionValues.value| > 0
    ensures r.Some? ==> var vs := FindColorOption(p.options.value).value.optionValues;
                        vs.Some? && |vs.value| > 0 && r.value == vs.value[0]
  {
    match p.options
    case None => None
    case Some(os) =>
      match FindColorOption(os)
      case None => None
      case Some(o) =>
        match o.optionValues
        case None => None
        case Some(vs) => if |vs| > 0 then Some(vs[0]) else None
  }

  /** A price: nothing for a missing or empty amount, else "$" and the amount rounded to whole dollars. */
  function PriceText(m: Option<Money>): (r: string)
    ensures r == "" <==> m.None? || m.value.amount == ""
    ensures r != "" ==> r[0] == '$' && r[1..] == ToFixed0(ParseFloat(m.value.amount))
  {
    if m.Some? && m.value.amount != "" then "$" + ToFixed0(ParseFloat(m.value.amount)) else ""
  }

  /** A storefront amount "n.0" is shown as "$n". */
  lemma PriceTextOfWholeAmount(n: nat)
    ensures PriceText(Some(Money(NatToString(n) + ".0"))) == "$" + NatToString(n)
  {
    var amount := NatToString(n) + "." + "0";
    assert amount == NatToString(n) + ".0";
    ParseFloatOfWholeAmount(n, "0");
    PriceTextOfParsedNat(amount, n);
  }

  lemma PriceTextOfParsedNat(amount: string, n: nat)
    requires amount != "" && ParseFloat(amount) == Fin(n as real)
    ensures PriceText(Some(Money(amount))) == "$" + NatToString(n)
  {
    ToFixed0OfNat(n);
  }

  datatype CardView = CardView(
    title: string,
    variantLabel: string,
    href: string,
    image: string,
    salePrice: string,
    originalPrice: string,
    showOriginal: bool,
    swatch: string,
    alt: string)

  /** The variant image URL, else the first product image URL, else "". */
  function CardImage(p: Product): (r: string)
    ensures r == "" <==>
              (p.selectedOrFirstAvailableVariant.None? || p.selectedOrFirstAvailableVariant.value.image.None?
               || p.selectedOrFirstAvailableVariant.value.image.value.url == "")
              && (p.images.None? || |p.images.value| == 0 || p.images.value[0].url == "")
    ensures p.selectedOrFirstAvailableVariant.Some? && p.selectedOrFirstAvailableVariant.value.image.Some?
            && p.selectedOrFirstAvailableVariant.value.image.value.url != ""
            ==> r == p.selectedOrFirstAvailableVariant.value.image.value.url
    ensures r != "" ==> (p.selectedOrFirstAvailableVariant.Some? && p.selectedOrFirstAvailableVariant.value.image.Some?
                         && r == p.selectedOrFirstAvailableVariant.value.image.value.url)
                        || (p.images.Some? && |p.images.value| > 0 && r == p.images.value[0].url)
  {
    var fromVariant :=
      match p.selectedOrFirstAvailableVariant
      case None => None
      case Some(v) =>
        match v.image
        case None => None
        case Some(img) => Some(img.url);
    var fromProduct :=
      match p.images
      case None => None
      case Some(imgs) => if |imgs| > 0 then Some(imgs[0].url) else None;
    Or(fromVariant, Or(fromProduct, ""))
  }

  function Derive(p: Product): (r: CardView)
    ensures r.title != "" && (p.title != "" ==> r.title == p.title) && (p.title == "" ==> r.title == DefaultTitle)
    ensures r.image == CardImage(p)
    ensures |r.href| == |ProductPathPrefix| + |p.handle|
            && r.href[..|ProductPathPrefix|] == ProductPathPrefix && r.href[|ProductPathPrefix|..] == p.handle
    ensures r.swatch != ""
    ensures ColorValue(p).Some? && ColorValue(p).value.swatch.Some? && Truthy(ColorValue(p).value.swatch.value.color)
            ==> r.swatch == ColorValue(p).value.swatch.value.color.value
    ensures ColorValue(p).None? || ColorValue(p).value.swatch.None? || !Truthy(ColorValue(p).value.swatch.value.color)
            ==> r.swatch == DefaultSwatch
    ensures r.showOriginal <==> r.originalPrice != ""
    ensures r.salePrice == PriceText(if p.selectedOrFirstAvailableVariant.Some? then p.selectedOrFirstAvailableVariant.value.price else None)
    ensures r.originalPrice == PriceText(if p.selectedOrFirstAvailableVariant.Some? then p.selectedOrFirstAvailableVariant.value.compareAtPrice else None)
    ensures r.alt == r.title + " - " + r.variantLabel
  {
    var variant := p.selectedOrFirstAvailableVariant;
    var colorValue := ColorValue(p);
    var title := Or(Some(p.title), DefaultTitle);
    var variantLabel :=
      Or(if colorValue.Some? then Some(colorValue.value.name) else None,
         Or(if variant.Some? then Some(variant.value.title) else None, ""));
    var salePrice := PriceText(if variant.Some? then variant.value.price else None);
    var originalPrice := PriceText(if variant.Some? then variant.value.compareAtPrice else None);
    var swatch :=
      Or(if colorValue.Some? && colorValue.value.swatch.Some? then colorValue.value.swatch.value.color else None,
         DefaultSwatch);
    CardView(title, variantLabel, ProductPathPrefix + p.handle, CardImage(p),
             salePrice, originalPrice, originalPrice != "", swatch, title + " - " + variantLabel)
  }

  /**
    The variant label is the colour value's name when non-empty, else the
    variant's title when non-empty, else "".
   */
  lemma VariantLabelPreference(p: Product)
    ensures ColorValue(p).Some? && ColorValue(p).value.name != "" ==> Derive(p).variantLabel == ColorValue(p).value.name
    ensures (ColorValue(p).None? || ColorValue(p).value.name == "") && p.selectedOrFirstAvailableVariant.Some?
            ==> Derive(p).variantLabel == p.selectedOrFirstAvailableVariant.value.title
    ensures (ColorValue(p).None? || ColorValue(p).value.name == "") && p.selectedOrFirstAvailableVariant.None?
            ==> Derive(p).variantLabel == ""
  {
  }

  /** Without a "Color" option the swatch is the neutral grey. */
  lemma NoColorOptionMeansGreySwatch(p: Product)
    requires p.options.None? || forall i :: 0 <= i < |p.options.value| ==> p.options.value[i].name != ColorOptionName
    ensures Derive(p).swatch == DefaultSwatch
  {
  }

  /**
    A variant priced "n.0" with a compare-at price "m.0" shows "$n" and a
    struck-through "$m".
   */
  lemma WholePricesShown(p: Product, n: nat, m: nat)
    requires p.selectedOrFirstAvailableVariant.Some?
    requires p.selectedOrFirstAvailableVariant.value.price == Some(Money(NatToString(n) + ".0"))
    requires p.selectedOrFirstAvailableVariant.value.compareAtPrice == Some(Money(NatToString(m) + ".0"))
    ensures Derive(p).salePrice == "$" + NatToString(n)
    ensures Derive(p).originalPrice == "$" + NatToString(m) && Derive(p).showOriginal
  {
    PriceTextOfWholeAmount(n);
    PriceTextOfWholeAmount(m);
  }
}

=== FILE: product_details.dfy ===
/**
  The product details section: a page-level state made of the image
  carousel, the open flags of the cart drawer and of the fit guide, and the
  drawer's own quantity state. The section renders a fixed sample product.
 */
module ProductDetails {
  import opened Js
  import opened Numbers
  import Carousel
  import CartDrawer

  datatype SizeOption = SizeOption(size: string, available: bool)

  datatype ColorChoice = ColorChoice(name: string, handle: string, gradient: string, selected: bool)

  /** The product record the section displays. */
  datatype Product = Product(
    title: string,
    price: string,
    compareAtPrice: string,
    discount: string,
    description: string,
    color: string,
    rating: nat,
    reviewCount: nat,
    images: seq<string>,
    sizes: seq<SizeOption>,
    colors: seq<ColorChoice>)

  /** The sample product the section shows in place of a loaded one. */
  const Sample: Product := Product(
    "Women's Kiwi Slipper",
    "$66",
    "$95",
    "31% off",
    "Elevated everyday slipper that proves comfort goes with everything.",
    "Dark Camel",
    5,
    2,
    [ "//www.allbirds.com/cdn/shop/files/A12142_25Q4_Kiwi-Slipper-Dark-Camel-Stony-Cream-Sole_PDP_LEFT.png?v=1761687976&width=1024",
      "//www.allbirds.com/cdn/shop/files/A12142_25Q4_Kiwi-Slipper-Dark-Camel-Stony-Cream-Sole_PDP_BACK.png?v=1761687975&width=1024",
      "//www.allbirds.com/cdn/shop/files/A12142_25Q4_Kiwi-Slipper-Dark-Camel-Stony-Cream-Sole_PDP_TD_49fe6f45-b3d5-44d6-9ba0-836f9c849d04.png?v=1761687976&width=1024",
      "//www.allbirds.com/cdn/shop/files/A12142_25Q4_Kiwi-Slipper-Dark-Camel-Stony-Cream-Sole_PDP_SOLE.png?v=1761687975&width=1024",
      "//www.allbirds.com/cdn/shop/files/A12142_25Q4_Kiwi-Slipper-Dark-Camel-Stony-Cream-Sole_PDP_PAIR_3Q.png?v=1761687976&width=1024" ],
    [ SizeOption("5", false), SizeOption("6", false), SizeOption("7", false), SizeOption("8", false),
      SizeOption("9", false), SizeOption("10", false), SizeOption("11", true) ],
    [ ColorChoice("Medium Grey", "womens-kiwi-slipper-medium-grey",
                  "linear-gradient(135deg, rgb(139, 138, 143) 50%, rgb(101, 101, 102) 50%)", false),
      ColorChoice("Dark Camel", "womens-kiwi-slipper",
                  "linear-gradient(135deg, rgb(179, 139, 88) 50%, rgb(229, 220, 194) 50%)", true) ])

  /** How a size button is drawn. */
  datatype SizeButtonView = SizeButtonView(text: string, disabled: bool, filled: bool, struckThrough: bool)

  function SizeButton(s: SizeOption): (b: SizeButtonView)
    ensures b.text == s.size
    ensures b.disabled <==> !s.available
    ensures b.filled <==> !b.disabled
    ensures b.struckThrough <==> b.disabled
  {
    SizeButtonView(s.size, !s.available, s.available, !s.available)
  }

  /** Of the sample product's sizes only size 11 can be chosen. */
  lemma SampleSizes()
    ensures |Sample.sizes| == 7
    ensures forall i :: 0 <= i < |Sample.sizes| ==>
              (!SizeButton(Sample.sizes[i]).disabled <==> Sample.sizes[i].size == "11")
  {
  }

  /** The line item handed to the cart drawer. */
  function CartSnapshot(p: Product): (item: CartDrawer.CartItem)
    requires |p.images| > 0
    ensures item.quantity == 1
    ensures item.price == p.price && item.compareAtPrice == p.compareAtPrice
    ensures item.image == p.images[0] && item.title == p.title
    ensures item.variant == p.color + " (Stony Cream Sole)" && item.size == "11"
  {
    CartDrawer.CartItem(p.title, p.color + " (Stony Cream Sole)", "11", p.price, p.compareAtPrice, p.images[0], 1)
  }

  /** Everything the section keeps between clicks. */
  datatype Page = Page(gallery: Carousel.Gallery, cartOpen: bool, fitGuideOpen: bool, drawer: CartDrawer.Drawer)

  function Initial(p: Product): (page: Page)
    requires |p.images| > 0
    ensures Carousel.Valid(page.gallery) && page.gallery.slides == |p.images|
    ensures page.gallery.index == 0 && !page.cartOpen && !page.fitGuideOpen
    ensures page.drawer.quantity == 1 && !page.drawer.mounted
  {
    Page(Carousel.Init(|p.images|), false, false, CartDrawer.Init(CartSnapshot(p)))
  }

  /** The three "Add to Cart" buttons: in the info panel, and the mobile and desktop floating bars. */
  datatype AddToCartButton = InfoPanel | MobileBar | DesktopBar

  datatype Action =
    | AddToCart(button: AddToCartButton)
    | CloseCart
    | OpenFitGuide
    | CloseFitGuide
    | Slide(event: Carousel.Event)
    | DrawerMounted
    | Quantity(click: CartDrawer.QuantityClick)

  /** The drawer is on screen. */
  predicate DrawerVisible(page: Page) {
    page.cartOpen && page.drawer.mounted
  }

  function Dispatch(page: Page, a: Action): (r: Page)
    ensures a.AddToCart? ==> r == page.(cartOpen := true)
    ensures a.CloseCart? ==> r == page.(cartOpen := false)
    ensures a.OpenFitGuide? ==> r == page.(fitGuideOpen := true)
    ensures a.CloseFitGuide? ==> r == page.(fitGuideOpen := false)
    ensures a.Slide? ==> r.cartOpen == page.cartOpen && r.fitGuideOpen == page.fitGuideOpen && r.drawer == page.drawer
                         && r.gallery == Carousel.Handle(page.gallery, a.event)
    ensures a.DrawerMounted? ==> r == page.(drawer := CartDrawer.Mount(page.drawer))
    ensures a.Quantity? && DrawerVisible(page) ==> r == page.(drawer := CartDrawer.Press(page.drawer, a.click))
    ensures a.Quantity? && !DrawerVisible(page) ==> r == page
    ensures r.gallery.slides == page.gallery.slides
  {
    match a
    case AddToCart(_) => page.(cartOpen := true)
    case CloseCart => page.(cartOpen := false)
    case OpenFitGuide => page.(fitGuideOpen := true)
    case CloseFitGuide => page.(fitGuideOpen := false)
    case Slide(e) => page.(gallery := Carousel.Handle(page.gallery, e))
    case DrawerMounted => page.(drawer := CartDrawer.Mount(page.drawer))
    case Quantity(c) => if DrawerVisible(page) then page.(drawer := CartDrawer.Press(page.drawer, c)) else page
  }

  /** All three buttons do the same thing, and adding twice is the same as adding once. */
  lemma AddToCartIsOneHandler(page: Page, b1: AddToCartButton, b2: AddToCartButton)
    ensures Dispatch(page, AddToCart(b1)) == Dispatch(page, AddToCart(b2))
    ensures Dispatch(Dispatch(page, AddToCart(b1)), AddToCart(b2)) == Dispatch(page, AddToCart(b1))
    ensures Dispatch(page, AddToCart(b1)).cartOpen
  {
  }

  /** The drawer stays in the page while closed, so reopening it shows the earlier quantity. */
  lemma ReopeningKeepsQuantity(page: Page, b: AddToCartButton)
    ensures Dispatch(Dispatch(page, CloseCart), AddToCart(b)).drawer == page.drawer
    ensures DrawerVisible(Dispatch(Dispatch(page, CloseCart), AddToCart(b))) <==> page.drawer.mounted
  {
  }

  /** What holds of every reachable page. */
  predicate Consistent(page: Page, slides: nat) {
    Carousel.Valid(page.gallery) && page.gallery.slides == slides && page.drawer.quantity >= 1
  }

  /** Only pagination dots that are drawn can be clicked. */
  predicate Clickable(slides: nat, a: Action) {
    a.Slide? ==> Carousel.Offered(slides, a.event.click)
  }

  function Run(page: Page, actions: seq<Action>): (r: Page)
    requires Consistent(page, page.gallery.slides)
    requires forall k :: 0 <= k < |actions| ==> Clickable(page.gallery.slides, actions[k])
    ensures Consistent(r, page.gallery.slides)
    decreases |actions|
  {
    if |actions| == 0 then page
    else
      var next := Dispatch(page, actions[0]);
      assert Clickable(page.gallery.slides, actions[0]);
      Run(next, actions[1..])
  }

  /** The fit guide opens only from its own button. */
  lemma {:induction false} FitGuideOpensOnlyFromItsButton(page: Page, actions: seq<Action>)
    requires Consistent(page, page.gallery.slides) && !page.fitGuideOpen
    requires forall k :: 0 <= k < |actions| ==> Clickable(page.gallery.slides, actions[k])
    requires forall k :: 0 <= k < |actions| ==> !actions[k].OpenFitGuide?
    ensures !Run(page, actions).fitGuideOpen
    decreases |actions|
  {
    if |actions| > 0 {
      FitGuideOpensOnlyFromItsButton(Dispatch(page, actions[0]), actions[1..]);
    }
  }

  /** The cart drawer opens only from an "Add to Cart" button. */
  lemma {:induction false} CartOpensOnlyFromAddToCart(page: Page, actions: seq<Action>)
    requires Consistent(page, page.gallery.slides) && !page.cartOpen
    requires forall k :: 0 <= k < |actions| ==> Clickable(page.gallery.slides, actions[k])
    requires forall k :: 0 <= k < |actions| ==> !actions[k].AddToCart?
    ensures !Run(page, actions).cartOpen
    decreases |actions|
  {
    if |actions| > 0 {
      CartOpensOnlyFromAddToCart(Dispatch(page, actions[0]), actions[1..]);
    }
  }

  /** The sample's "$66" opens the drawer $9 short of free shipping. */
  lemma SampleCartShortOfFreeShipping()
    ensures CartDrawer.Subtotal(CartSnapshot(Sample), Initial(Sample).drawer) == Fin(66.0)
    ensures CartDrawer.AmountToFreeShipping(Fin(66.0)) == Fin(9.0)
  {
    var item := CartSnapshot(Sample);
    assert item.price == "$" + NatToString(66) by {
      assert NatToString(6) == "6";
      assert NatToString(66) == NatToString(6) + "6";
    }
    CartDrawer.SubtotalOfWholeDollars(item, Initial(Sample).drawer, 66);
  }
}

=== FILE: product_media.dfy ===
/**
  Extraction of the image URLs of a product from its media list, as the
  product gallery does it: keep the media nodes that are images, take each
  one's URL (or "" when it has none), and drop the empty ones.
 */
module ProductMedia {
  import opened Js

  datatype Image = Image(url: Option<string>)

  /** A media node; only nodes of type "MediaImage" carry an image. */
  datatype MediaNode = MediaNode(typename: string, image: Option<Image>)

  datatype Media = Media(nodes: Option<seq<MediaNode>>)

  datatype Product = Product(media: Option<Media>)

  /** The product's media nodes; none when the product, its media or the node list is missing. */
  function Nodes(product: Option<Product>): (ns: seq<MediaNode>)
    ensures product.None? || product.value.media.None? || product.value.media.value.nodes.None? ==> ns == []
    ensures product.Some? && product.value.media.Some? && product.value.media.value.nodes.Some?
            ==> ns == product.value.media.value.nodes.value
  {
    match product
    case None => []
    case Some(p) =>
      match p.media
      case None => []
      case Some(m) => m.nodes.GetOr([])
  }

  predicate IsMediaImage(m: MediaNode) {
    m.typename == "MediaImage"
  }

  /** A node's image URL, or "" when it has no image or the image has no (or an empty) URL. */
  function ImageUrl(m: MediaNode): (r: string)
    ensures m.image.Some? && Truthy(m.image.value.url) ==> r == m.image.value.url.value
    ensures m.image.None? || !Truthy(m.image.value.url) ==> r == ""
  {
    match m.image
    case None => ""
    case Some(img) => Or(img.url, "")
  }

  /** The first filter: the image nodes, each as often as it occurs, in their order. */
  function KeepMediaImages(ns: seq<MediaNode>): (r: seq<MediaNode>)
    ensures |r| <= |ns|
    ensures forall k :: 0 <= k < |r| ==> IsMediaImage(r[k]) && r[k] in ns
    ensures forall m :: m in ns && IsMediaImage(m) ==> m in r
  {
    if |ns| == 0 then []
    else
      var rest := KeepMediaImages(ns[1..]);
      assert forall m :: m in ns[1..] ==> m in ns;
      if IsMediaImage(ns[0]) then [ns[0]] + rest else rest
  }

  /** Each image node is kept as many times as it occurs; any other node, never. */
  lemma {:induction false} KeepMediaImagesCounts(ns: seq<MediaNode>, m: MediaNode)
    ensures multiset(KeepMediaImages(ns))[m] == if IsMediaImage(m) then multiset(ns)[m] else 0
  {
    if |ns| > 0 {
      KeepMediaImagesCounts(ns[1..], m);
      assert ns == [ns[0]] + ns[1..];
      assert multiset(ns) == multiset([ns[0]]) + multiset(ns[1..]);
    }
  }

  /** Filtering a concatenation filters each part and keeps them in order. */
  lemma {:induction false} KeepMediaImagesAppend(a: seq<MediaNode>, b: seq<MediaNode>)
    ensures KeepMediaImages(a + b) == KeepMediaImages(a) + KeepMediaImages(b)
  {
    if |a| > 0 {
      assert (a + b)[0] == a[0];
      assert (a + b)[1..] == a[1..] + b;
      KeepMediaImagesAppend(a[1..], b);
    } else {
      assert a + b == b;
    }
  }

  /** A single node is kept exactly when it is an image node. */
  lemma KeepMediaImagesSingle(m: MediaNode)
    ensures KeepMediaImages([m]) == if IsMediaImage(m) then [m] else []
  {
    assert [m][1..] == [];
  }

  /** The mapping stage: each node's image URL, position by position. */
  function Urls(ns: seq<MediaNode>): (r: seq<string>)
    ensures |r| == |ns|
    ensures forall k :: 0 <= k < |ns| ==> r[k] == ImageUrl(ns[k])
  {
    if |ns| == 0 then [] else [ImageUrl(ns[0])] + Urls(ns[1..])
  }

  /** The last filter: the non-empty URLs, each as often as it occurs, in their order. */
  function KeepNonEmpty(us: seq<string>): (r: seq<string>)
    ensures |r| <= |us|
    ensures forall k :: 0 <= k < |r| ==> r[k] != "" && r[k] in us
    ensures forall u :: u in us && u != "" ==> u in r
  {
    if |us| == 0 then []
    else
      var rest := KeepNonEmpty(us[1..]);
      assert forall u :: u in us[1..] ==> u in us;
      if us[0] != "" then [us[0]] + rest else rest
  }

  /** Each non-empty URL is kept as many times as it occurs; the empty one, never. */
  lemma {:induction false} KeepNonEmptyCounts(us: seq<string>, u: string)
    ensures multiset(KeepNonEmpty(us))[u] == if u != "" then multiset(us)[u] else 0
  {
    if |us| > 0 {
      KeepNonEmptyCounts(us[1..], u);
      assert us == [us[0]] + us[1..];
      assert multiset(us) == multiset([us[0]]) + multiset(us[1..]);
    }
  }

  /** Filtering a concatenation filters each part and keeps them in order. */
  lemma {:induction false} KeepNonEmptyAppend(a: seq<string>, b: seq<string>)
    ensures KeepNonEmpty(a + b) == KeepNonEmpty(a) + KeepNonEmpty(b)
  {
    if |a| > 0 {
      assert (a + b)[0] == a[0];
      assert (a + b)[1..] == a[1..] + b;
      KeepNonEmptyAppend(a[1..], b);
    } else {
      assert a + b == b;
    }
  }

  /** A single URL is kept exactly when it is non-empty. */
  lemma KeepNonEmptySingle(u: string)
    ensures KeepNonEmpty([u]) == if u != "" then [u] else []
  {
    assert [u][1..] == [];
  }

  /** The gallery's image list: filter to image nodes, map to URLs, drop the empty ones. */
  function ExtractProductImages(product: Option<Product>): (r: seq<string>)
    ensures Nodes(product) == [] ==> r == []
    ensures |r| <= |Nodes(product)|
    ensures forall k :: 0 <= k < |r| ==> r[k] != ""
  {
    KeepNonEmpty(Urls(KeepMediaImages(Nodes(product))))
  }

  /** The images a node contributes: its URL when it is an image node with a non-empty URL. */
  function Contribution(m: MediaNode): seq<string> {
    if IsMediaImage(m) && ImageUrl(m) != "" then [ImageUrl(m)] else []
  }

  /** One pass over the nodes, in order, collecting each node's contribution. */
  function ImagesInOrder(ns: seq<MediaNode>): seq<string> {
    if |ns| == 0 then [] else Contribution(ns[0]) + ImagesInOrder(ns[1..])
  }

  /**
    The three-stage pipeline returns exactly the non-empty URLs of the image
    nodes, in node order.
   */
  lemma {:induction false} ExtractIsInOrder(ns: seq<MediaNode>)
    ensures KeepNonEmpty(Urls(KeepMediaImages(ns))) == ImagesInOrder(ns)
  {
    if |ns| > 0 {
      ExtractIsInOrder(ns[1..]);
      var kept := KeepMediaImages(ns[1..]);
      if IsMediaImage(ns[0]) {
        assert KeepMediaImages(ns) == [ns[0]] + kept;
        assert Urls([ns[0]] + kept) == [ImageUrl(ns[0])] + Urls(kept);
        assert ([ns[0]] + kept)[1..] == kept;
        assert ([ImageUrl(ns[0])] + Urls(kept))[1..] == Urls(kept);
      }
    }
  }

  /** Every returned URL is the non-empty URL of some image node. */
  lemma ExtractedUrlHasNode(product: Option<Product>, u: string)
    requires u in ExtractProductImages(product)
    ensures exists i :: 0 <= i < |Nodes(product)| && IsMediaImage(Nodes(product)[i]) && ImageUrl(Nodes(product)[i]) == u && u != ""
  {
    var ns := Nodes(product);
    var kept := KeepMediaImages(ns);
    var urls := Urls(kept);
    assert u in urls && u != "";
    var j :| 0 <= j < |urls| && urls[j] == u;
    assert kept[j] in ns;
    var i :| 0 <= i < |ns| && ns[i] == kept[j];
  }

  /** Every image node with a non-empty URL has that URL returned. */
  lemma NodeUrlIsExtracted(product: Option<Product>, i: int)
    requires 0 <= i < |Nodes(product)| && IsMediaImage(Nodes(product)[i]) && ImageUrl(Nodes(product)[i]) != ""
    ensures ImageUrl(Nodes(product)[i]) in ExtractProductImages(product)
  {
    var ns := Nodes(product);
    var kept := KeepMediaImages(ns);
    var urls := Urls(kept);
    assert ns[i] in kept;
    var j :| 0 <= j < |kept| && kept[j] == ns[i];
    assert urls[j] == ImageUrl(ns[i]);
  }

  /** A URL is returned exactly when some image node has it as its non-empty URL. */
  lemma ExtractMembership(product: Option<Product>, u: string)
    ensures u in ExtractProductImages(product)
            <==> exists i :: 0 <= i < |Nodes(product)| && IsMediaImage(Nodes(product)[i]) && ImageUrl(Nodes(product)[i]) == u && u != ""
  {
    if u in ExtractProductImages(product) {
      ExtractedUrlHasNode(product, u);
    }
    if exists i :: 0 <= i < |Nodes(product)| && IsMediaImage(Nodes(product)[i]) && ImageUrl(Nodes(product)[i]) == u && u != "" {
      var i :| 0 <= i < |Nodes(product)| && IsMediaImage(Nodes(product)[i]) && ImageUrl(Nodes(product)[i]) == u && u != "";
      NodeUrlIsExtracted(product, i);
    }
  }

  /** A node that is not an image node, placed anywhere, changes nothing. */
  lemma {:induction false} NonImageNodesContributeNothing(before: seq<MediaNode>, m: MediaNode, after: seq<MediaNode>)
    requires !IsMediaImage(m)
    ensures ImagesInOrder(before + [m] + after) == ImagesInOrder(before + after)
  {
    if |before| == 0 {
      assert before + [m] + after == [m] + after;
      assert ([m] + after)[1..] == after;
      assert before + after == after;
    } else {
      assert (before + [m] + after)[1..] == before[1..] + [m] + after;
      assert (before + after)[1..] == before[1..] + after;
      NonImageNodesContributeNothing(before[1..], m, after);
    }
  }
}

=== FILE: sales_item.dfy ===
/**
  One item of the featured collections sales section: its loader fetches the
  chosen collection by its global ID; the item shows the collection's image
  (or its own main image), and a second image that fades in while the mouse
  is over the item.
 */
module SalesItem {
  import opened Js
  import opened Numbers

  /** The collection picked in the settings; the page builder stores its numeric ID. */
  datatype CollectionSetting = CollectionSetting(id: nat)

  datatype CollectionImage = CollectionImage(url: string, altText: Option<string>, width: Option<nat>, height: Option<nat>)

  /** The collection node the storefront query returns. */
  datatype CollectionNode = CollectionNode(id: string, title: string, handle: string, image: Option<CollectionImage>)

  const GlobalIdPrefix: string := "gid://shopify/Collection/"

  /** The storefront's global ID of a collection. */
  function GlobalId(id: nat): (gid: string)
    ensures |gid| > |GlobalIdPrefix| && gid[..|GlobalIdPrefix|] == GlobalIdPrefix
    ensures AllDigits(gid[|GlobalIdPrefix|..])
    ensures gid[|GlobalIdPrefix|] == '0' ==> id == 0 && |gid| == |GlobalIdPrefix| + 1
  {
    GlobalIdPrefix + NatToString(id)
  }

  /** Reads the numeric ID back out of a collection's global ID. */
  function CollectionIdOf(gid: string): Option<nat> {
    if |gid| > |GlobalIdPrefix| && gid[..|GlobalIdPrefix|] == GlobalIdPrefix && AllDigits(gid[|GlobalIdPrefix|..]) then
      Some(DigitsValue(gid[|GlobalIdPrefix|..]))
    else
      None
  }

  /** The global ID names the collection it was built from. */
  lemma GlobalIdRoundTrip(id: nat)
    ensures CollectionIdOf(GlobalId(id)) == Some(id)
  {
    assert GlobalId(id)[|GlobalIdPrefix|..] == NatToString(id);
    NatToStringValue(id);
  }

  /** Different collections are asked for by different global IDs. */
  lemma GlobalIdInjective(a: nat, b: nat)
    ensures GlobalId(a) == GlobalId(b) <==> a == b
  {
    if GlobalId(a) == GlobalId(b) {
      GlobalIdRoundTrip(a);
      GlobalIdRoundTrip(b);
    }
  }

  /** The global ID the loader queries, if it queries at all: only for a set, non-zero ID. */
  function Request(collection: Option<CollectionSetting>): (r: Option<string>)
    ensures r.Some? <==> collection.Some? && collection.value.id != 0
    ensures r.Some? ==> CollectionIdOf(r.value) == Some(collection.value.id)
    ensures r.Some? ==> r.value == GlobalId(collection.value.id)
  {
    if collection.Some? && collection.value.id != 0 then
      GlobalIdRoundTrip(collection.value.id);
      Some(GlobalId(collection.value.id))
    else
      None
  }

  /**
    The loader. The storefront query is a parameter: it maps a global ID to
    the node found, if any.
   */
  function Loader(collection: Option<CollectionSetting>, query: string -> Option<CollectionNode>): (r: Option<CollectionNode>)
    ensures collection.None? || collection.value.id == 0 ==> r.None?
    ensures Request(collection).Some? ==> r == query(Request(collection).value)
  {
    match Request(collection)
    case None => None
    case Some(gid) => query(gid)
  }

  /** Two items pointing at the same collection load the same node. */
  lemma SameCollectionSameNode(c1: Option<CollectionSetting>, c2: Option<CollectionSetting>, query: string -> Option<CollectionNode>)
    requires c1.Some? && c2.Some? && c1.value.id == c2.value.id
    ensures Loader(c1, query) == Loader(c2, query)
  {
  }

  /** The fields of an image object; any of them may be missing. */
  datatype ImageFields = ImageFields(url: Option<string>, altText: Option<string>, width: Option<nat>, height: Option<nat>)

  /** An image setting as it arrives: unset, null, a URL string or an image object. */
  datatype ImageSetting = Undefined | Null | Text(s: string) | Object(fields: ImageFields)

  /** The image data handed to the image component; `Missing` is a null object. */
  datatype ImageData = Missing | Picture(fields: ImageFields)

  /** An image object holding only a URL, as built from a bare string. */
  function UrlOnly(url: Option<string>): ImageFields {
    ImageFields(url, None, None, None)
  }

  /**
    A string becomes an image object with that URL and nothing else; anything
    whose type is "object" is kept as it is. The type of null is "object", so
    null passes through as null, while an unset value becomes an image with no
    URL.
   */
  function Normalize(x: ImageSetting): (r: ImageData)
    ensures r.Missing? <==> x.Null?
    ensures x.Text? ==> r == Picture(UrlOnly(Some(x.s)))
    ensures x.Undefined? ==> r == Picture(UrlOnly(None))
    ensures x.Object? ==> r == Picture(x.fields)
  {
    match x
    case Null => Missing
    case Object(f) => Picture(f)
    case Text(s) => Picture(UrlOnly(Some(s)))
    case Undefined => Picture(UrlOnly(None))
  }

  /**
    The image shown: the collection's image whenever the loader found one,
    with its alt text and dimensions, else the normalised main image.
   */
  function DisplayImage(loaderData: Option<CollectionNode>, mainImage: ImageSetting): (r: ImageData)
    ensures loaderData.Some? && loaderData.value.image.Some? ==>
              var ci := loaderData.value.image.value;
              r.Picture? && r.fields.url == Some(ci.url) && r.fields.altText == ci.altText
              && r.fields.width == ci.width && r.fields.height == ci.height
    ensures loaderData.None? || loaderData.value.image.None? ==> r == Normalize(mainImage)
  {
    if loaderData.Some? && loaderData.value.image.Some? then
      var ci := loaderData.value.image.value;
      Picture(ImageFields(Some(ci.url), ci.altText, ci.width, ci.height))
    else Normalize(mainImage)
  }

  /**
    The aspect ratio setting as it arrives. Only an unset value takes the
    default of the destructuring; an explicit null is passed on as null.
   */
  datatype AspectSetting = Unset | NullAspect | Mode(s: string)

  const DefaultAspectRatio: string := "adapt"

  /** The aspect ratio argument after the destructuring default; `None` is null. */
  function AspectArgument(aspect: AspectSetting): (r: Option<string>)
    ensures aspect.Unset? ==> r == Some(DefaultAspectRatio)
    ensures aspect.NullAspect? <==> r.None?
    ensures aspect.Mode? ==> r == Some(aspect.s)
  {
    match aspect
    case Unset => Some(DefaultAspectRatio)
    case NullAspect => None
    case Mode(s) => Some(s)
  }

  /** The hover layer: its image, and whether it is currently shown. */
  datatype HoverLayer = HoverLayer(image: ImageData, visible: bool)

  /**
    What the item draws: the main image, the arguments it passes to the aspect
    ratio helper, and the hover layer when there is a hover image.
   */
  datatype ItemView = ItemView(main: ImageData, aspectImage: ImageData, aspectSetting: Option<string>, hover: Option<HoverLayer>)

  /** A hover image is drawn when the setting is truthy: an object, or a non-empty string. */
  predicate TruthySetting(x: ImageSetting) {
    x.Object? || (x.Text? && x.s != "")
  }

  function Render(loaderData: Option<CollectionNode>, mainImage: ImageSetting, hoverImage: ImageSetting,
                  aspect: AspectSetting, hovered: bool): (r: ItemView)
    ensures r.main == r.aspectImage && r.main == DisplayImage(loaderData, mainImage)
    ensures r.aspectSetting == AspectArgument(aspect)
    ensures r.hover.Some? <==> TruthySetting(hoverImage)
    ensures r.hover.Some? ==> r.hover.value.visible == hovered && r.hover.value.image == Normalize(hoverImage)
  {
    var main := DisplayImage(loaderData, mainImage);
    ItemView(main, main, AspectArgument(aspect),
             if TruthySetting(hoverImage) then Some(HoverLayer(Normalize(hoverImage), hovered)) else None)
  }

  /** An item whose loader found nothing falls back to its main image, so a null main image leaves it without one. */
  lemma NoCollectionUsesMainImage(mainImage: ImageSetting, hoverImage: ImageSetting, aspect: AspectSetting, hovered: bool)
    ensures Render(None, mainImage, hoverImage, aspect, hovered).main == Normalize(mainImage)
    ensures Render(None, mainImage, hoverImage, aspect, hovered).main.Missing? <==> mainImage.Null?
  {
  }

  /** Mouse events on the item. */
  datatype MouseEvent = Enter | Leave

  /** The hover flag after one event: entering sets it and leaving clears it, whatever it was. */
  function Step(hovered: bool, e: MouseEvent): (r: bool)
    ensures r <==> e == Enter
  {
    e.Enter?
  }

  /** The hover flag after a sequence of mouse events, starting from `hovered`. */
  function Track(hovered: bool, es: seq<MouseEvent>): (r: bool)
    ensures |es| == 0 ==> r == hovered
    ensures |es| > 0 ==> (r <==> es[|es| - 1] == Enter)
    decreases |es|
  {
    if |es| == 0 then hovered
    else
      var r := Track(Step(hovered, es[0]), es[1..]);
      assert |es| > 1 ==> es[1..][|es[1..]| - 1] == es[|es| - 1];
      r
  }

  /** The hover layer is visible exactly while the mouse is over the item. */
  lemma HoverLayerShownWhileInside(loaderData: Option<CollectionNode>, mainImage: ImageSetting, hoverImage: ImageSetting,
                                   aspect: AspectSetting, es: seq<MouseEvent>)
    requires TruthySetting(hoverImage) && |es| > 0
    ensures Render(loaderData, mainImage, hoverImage, aspect, Track(false, es)).hover.value.visible
            <==> es[|es| - 1] == Enter
  {
  }
}
